=== FILE: README.md ===
# gapic-config-validator, modelled in Dafny

This project models the core of the GAPIC annotation validator, a `protoc`
plugin. The plugin reads the protobuf descriptors of an API and checks the
GAPIC annotations in them. Every violation becomes one line of the plugin
response's error text. The model covers:

- **Resolver** (`resolver.dfy`): the two name lookups over the file set.
  - `resolveMsgReference` resolves an operation_info type name. A bare
    name is tried first in the file's own package.
  - `resolveResRefMessage` resolves a resource type, looking only in one
    file.
- **Validator** (`validator.dfy`): the walk over one file, in this order:
  1. resource definitions: the type format, the kind regular expression
     and the kind length limit;
  2. services: default_host;
  3. methods: operation_info and the method_signature field paths;
  4. messages: the resource annotation, its name field and every
     field's resource_reference.
- **Comparator** (`comparator.dfy`): the optional comparison with a
  legacy GAPIC configuration. It covers:
  - interfaces against services;
  - method configs against method annotations: flattening, long_running
    and required_fields;
  - collections against resource definitions;
  - resource_name_generation entries against resource references.
- **Plugin** (`plugin.dfy`): the entry point `Validate`. It runs the
  comparison when a config is present, then validates each file to
  generate. It stops with a Go error at the first name that has no
  descriptor.
- **LcsDiff** (`lcsdiff.dfy`): `lcsDiff` and `compare` from the
  error-conformance tool. These build a longest-common-subsequence table,
  backtrack through it into an edit script, and print the script.

Supporting modules:

- `Wrappers`/`Search`: Option and first-match search.
- `GoStrings`: Go's `strings.Split`, `Join`, `Contains` and `Index`.
- `Descriptors`/`Config`: the descriptor and legacy-config records.
- `Diagnostics`: one constructor per error template, and the
  append-only error text.
- `Fixtures`: the concrete cases of `validator_test.go` that the model
  reproduces.

Diagnostics are values (`Diagnostic`), not strings. `Text` gives each
template's wording, and `Render` gives the newline-joined error text that
`addError` builds. The Go code looks things up in maps (`v.files`). The
model takes the file set as a sequence, and "first match" is relative to
that sequence.

## Model

| member | source | states |
|---|---|---|
| Resolver.ResolveMsgReference | internal/validator/resolver.go:34-59 | An empty name resolves to nothing. A bare name that exists in the file's own package resolves there, before any other file is consulted. Otherwise the result is the first file's answer for the name as given. Any result is named either by the name or by package + "." + name. |
| Resolver.ResolveResRefMessage | internal/validator/resolver.go:13-30 | An empty type resolves to nothing. Otherwise only the message package + "." + type of the given file can be returned, and None means that file declares no such message. |
| Resolver.ResRefWithSlashUnresolvable | internal/validator/resolver.go:21-29 | A type containing '/' never resolves in a parsed file, because message names never contain '/'. |
| Validator.MatchesKindRegexp | internal/validator/validator.go:79 | The left-to-right scan is true exactly when the unanchored regular expression [A-Z][a-zA-Z0-9]+ matches somewhere in the kind. |
| Validator.ValidateRescTypeKind | internal/validator/validator.go:287-295 | An invalid-format diagnostic appears iff the regular expression does not match. A too-long diagnostic (limit 100) appears iff the kind is over 100 characters. There are no other diagnostics, at most two, and the format one comes first. |
| Validator.ValidateResourceDescriptor | internal/validator/validator.go:262-283 | A missing pattern is reported iff there are no patterns. An empty type gives exactly the pattern report and a missing-type report. A type without exactly one '/' gives a format report. Otherwise the kind after the '/' is checked. Every report is a resource-descriptor report. |
| Validator.ResourceDescriptorAccepted | internal/validator/validator.go:262-295 | A descriptor passes iff it has a pattern and a type with exactly one '/' whose kind matches the regular expression and is at most 100 characters. |
| Validator.ValidateResRef | internal/validator/validator.go:299-321 | The type checked is `type`, or `child_type` when `type` is empty. A well-known type or "*" gives nothing. A type that is not exactly two '/'-separated parts gives one format error. Otherwise "not a valid resource" is reported iff the local lookup fails. |
| Validator.WellFormedReferenceAlwaysReported | internal/validator/validator.go:309-320 | On a parsed file, every well-formed reference that is neither well-known nor "*" is reported as not valid, whatever the file set holds. |
| Validator.ResRefReportNamesField | internal/validator/validator.go:299-321 | A resource_reference report is one of the two reference kinds and names the field it was given. |
| Validator.ReferenceDiagnostics | internal/validator/validator.go:249-256 | At most one diagnostic per field. Every report of a field that carries a resource_reference appears, and every diagnostic is one of those reports. The result is empty iff every such field's check is silent. |
| Validator.ReferenceDiagnosticsInOrder | internal/validator/validator.go:249-256 | The fields are checked in order: the first field's reports come before those of the rest. |
| Validator.ReferenceReportsNameFields | internal/validator/validator.go:249-256 | Every reference diagnostic is a resource_reference report that names a field of the message carrying a resource_reference. |
| Validator.ValidateMessage | internal/validator/validator.go:233-257 | A missing-name-field report appears iff the message has a resource and lacks its name field (name_field, default "name"). A message without a resource gets exactly its reference reports. With a resource, the result is the resource checks, then at most one missing-name-field report, then the reference reports, with nothing else. The result is empty iff every part is silent. |
| Validator.DefaultHostDiagnostics | internal/validator/validator.go:138-146 | Missing options or a missing extension give exactly one missing-host report. An empty value gives exactly one empty-host report. A non-empty value gives nothing. |
| Validator.ResponseTypeDiagnostics | internal/validator/validator.go:166-171 | An empty response_type is reported as missing. Otherwise it is reported as unresolvable iff the resolver finds nothing, and nothing is reported when it resolves. |
| Validator.MetadataTypeDiagnostics | internal/validator/validator.go:173-178 | The same three outcomes as for response_type, for metadata_type. |
| Validator.LroDiagnostics | internal/validator/validator.go:159-179 | The checks run only for the output type google.longrunning.Operation. Missing options or operation_info give exactly one missing-info report. Otherwise the response_type check is followed by the metadata_type check. |
| Validator.WalkFromReached | internal/validator/validator.go:196-227 | Walking a path whose prefix reaches message m is the same as walking the rest of the path from m. |
| Validator.WalkableThroughReached | internal/validator/validator.go:196-227 | A path whose prefix reaches message m can be walked whenever the rest of it can be walked from m. |
| Validator.RepeatedLastComponentAccepted | internal/validator/validator.go:205-212 | A repeated field is accepted as the last component of a path. |
| Validator.RepeatedInnerComponentRejected | internal/validator/validator.go:205-212 | A repeated field before the last component ends the walk with the repeated-component outcome. |
| Validator.MissingComponentReported | internal/validator/validator.go:198-203 | A component that names no field of the reached message ends the walk with the missing outcome. |
| Validator.PathDiagnostics | internal/validator/validator.go:189-227 | A path gives at most one diagnostic. It is a field-does-not-exist report iff the walk is missing, and a repeated-component report iff the walk hits a repeated inner component. |
| Validator.EntryDiagnostics | internal/validator/validator.go:186-228 | At most one report per comma-separated path. Every path's report appears, and every diagnostic is the report of one of the entry's paths. The entry is silent iff every path is. |
| Validator.SignatureDiagnostics | internal/validator/validator.go:182-230 | Every entry's reports appear, and every diagnostic is the report of one entry. The result is empty iff every entry is silent. |
| Validator.SignatureReportsName | internal/validator/validator.go:182-230 | Every method_signature diagnostic is a field-does-not-exist or repeated-component report that names the method. |
| Validator.SignatureReportSource | internal/validator/validator.go:182-230 | Every method_signature diagnostic is the report of one path of one entry. |
| Validator.PathReportNamesMethod | internal/validator/validator.go:189-227 | The report of one path is a field-does-not-exist or repeated-component report that names the method. |
| Validator.PathReportReachesSignature | internal/validator/validator.go:182-230 | The report of any path of any entry appears among the method_signature diagnostics. |
| Validator.SignatureReportsPaths | internal/validator/validator.go:189-227 | A path whose walk finds no field is reported as field-does-not-exist, naming the path, the method, the entry and the input message. A path that walks through a repeated inner component gets a repeated-component report. |
| Validator.SignatureAccepted | internal/validator/validator.go:182-230 | The method_signature checks are silent iff every path of every entry resolves. |
| Validator.ValidateMethod | internal/validator/validator.go:155-231 | The operation_info checks come first and the method_signature checks form the end, with nothing else between them. Every diagnostic names the method. |
| Validator.MethodAccepted | internal/validator/validator.go:155-231 | A method passes iff its operation_info checks pass and every signature path resolves. A missing path and a repeated inner component are both reported. |
| Validator.ValidateMethods | internal/validator/validator.go:148-151 | Every method's reports appear, and every diagnostic is a report of one method and names it. The methods are silent iff each one is. |
| Validator.ValidateService | internal/validator/validator.go:138-152 | The default_host reports appear exactly in their cases. With a valid host, every diagnostic is a method diagnostic. The default_host check comes first, and the method checks form the rest. |
| Validator.DefinitionDiagnostics | internal/validator/validator.go:116-123 | Every definition's reports appear, and every diagnostic is a report of one definition. The result holds only resource-descriptor diagnostics, and is empty iff every definition passes. |
| Validator.ServiceDiagnostics | internal/validator/validator.go:125-128 | Every service's reports appear, and every diagnostic is a report of one service. The result is empty iff every service passes. |
| Validator.MessageDiagnostics | internal/validator/validator.go:130-133 | Every top-level message's reports appear, and every diagnostic is a report of one message. The result is empty iff every message passes. |
| Validator.ValidateFile | internal/validator/validator.go:115-134 | The definition checks come first, the service checks next and the top-level message checks last, with nothing else. The file passes iff all three parts are silent. |
| Diagnostics.AddError | internal/validator/validator.go:326-334 | The error text only grows: the old text is kept as a prefix, followed by a newline and the new message. |
| Diagnostics.AddAllAppends | internal/validator/validator.go:326-334 | Adding diagnostics one call at a time appends their rendering to the text already there. |
| Diagnostics.RenderEmpty | internal/validator/validator.go:326-334 | The error text is empty iff nothing was reported. |
| Diagnostics.RenderAppend | internal/validator/validator.go:326-334 | The rendering of two runs of diagnostics is the concatenation of their renderings. |
| Diagnostics.RenderSpelledOut | internal/validator/validator.go:326-334 | The k-th diagnostic's line sits between the lines of the ones before it and the lines of the ones after it. |
| Plugin.FindFile | internal/validator/validator.go:94-98 | The rich descriptor found has the requested name. None means no file has that name. |
| Plugin.FirstMissing | internal/validator/validator.go:94-99 | There is no Go error iff every name to generate has a descriptor. Otherwise the error names the first name without one. |
| Plugin.FirstMissingShift | internal/validator/validator.go:94-99 | Past a name that has a descriptor, the first missing name moves one position on. |
| Plugin.GenerateFailure | internal/validator/validator.go:94-104 | The loop over the files to generate ends with the Go error of the first name that has no descriptor. |
| Plugin.FailureStep | internal/validator/validator.go:94-102 | The loop's error after one name: that name's error when it has no descriptor, else the error of the remaining names. |
| Plugin.GenerateStep | internal/validator/validator.go:94-102 | A found file is validated before the remaining names are processed. |
| Plugin.GenerateStopsAtMissing | internal/validator/validator.go:94-99 | At a missing name the run stops: the reports for the names before it stay, and nothing after it is validated. |
| Plugin.Validate | internal/validator/validator.go:75-105 | Without a config the run is the file loop alone. With a config, the comparison's reports come first and the file loop's reports form the rest. The Go error is that of the file loop either way. |
| Plugin.ErrorTextReportsDiagnostics | internal/validator/validator.go:75-105 | The response's error text is the rendering of the diagnostics in order. It is empty iff no diagnostic was added. |
| Comparator.Contain | internal/validator/comparator.go:317-335 | True iff the value is an element of the list. The one generic scan models both containBehavior and containStr. |
| Comparator.CamelFrom | internal/validator/comparator.go:414-428 | The loop drops every underscore and keeps exactly one character for each other character. The result has no underscore. When the first character is to be capitalised, the result does not start with a lower-case letter. |
| Comparator.CamelFromByWords | internal/validator/comparator.go:414-428 | The character loop agrees with the word-wise definition, both when it starts capitalising and when it starts lower-casing (the first word lower-cased, later words capitalised). |
| Comparator.SnakeToCamel | internal/validator/comparator.go:414-428 | The result has one character per non-underscore input character, no underscore, and never starts with a lower-case letter. |
| Comparator.SnakeToCamelByWords | internal/validator/comparator.go:414-428 | snakeToCamel equals the independent definition "split at '_', capitalise each word, join without separator". |
| Comparator.LocalName | internal/validator/comparator.go:106-126 | The local name is the dot-free suffix after the last '.', or the whole name when it has no '.'. |
| Comparator.LocalNameOfQualified | internal/validator/comparator.go:106-126 | A qualified reference and its bare form have the same local name, so comparing by local name ignores the package. |
| Comparator.GroupDiagnostics | internal/validator/comparator.go:86-96 | There is no report iff every flattening group, comma-joined, is a signature. Each group missing from the signatures is reported, and only such groups are. |
| Comparator.FlatteningDiagnostics | internal/validator/comparator.go:83-97 | The stage is silent iff the signatures mirror the flattening config. Flattening without signatures gives exactly one missing-signatures report. |
| Comparator.OperationInfoDiagnostics | internal/validator/comparator.go:101-142 | The stage is silent iff operation_info agrees with long_running up to local names. A missing operation_info is one report. A response-type or metadata-type mismatch is reported iff the local names differ. |
| Comparator.TypeMismatches | internal/validator/comparator.go:110-141 | No report iff both local names agree. A response mismatch is reported iff the response names differ, and a metadata mismatch iff the metadata names differ. At most two reports. |
| Comparator.RequiredFieldCheck | internal/validator/comparator.go:146-170 | There is no report iff the input message has the field marked REQUIRED. A missing field, a missing field_behavior and a field that is not REQUIRED each give their own single report. |
| Comparator.RequiredFieldDiagnostics | internal/validator/comparator.go:146-170 | At most one report per required_fields entry. Every entry's reports appear, and every diagnostic is the report of one entry. An entry naming no field of the input message is reported as not existing. The stage is silent iff every entry is annotated REQUIRED. |
| Comparator.CompareMethod | internal/validator/comparator.go:73-171 | IAM methods give nothing. Otherwise the result is the flattening reports, then the long-running reports, then the required-field reports, with nothing else. The method gives nothing iff it is an IAM method or its annotations mirror its config. |
| Comparator.ScanFilesFinds | internal/validator/comparator.go:181-229 | The nested loops over files, definitions and messages stop at the first decisive site (Sites, in visiting order). |
| Comparator.ScanDefinitionsFinds | internal/validator/comparator.go:183-199 | The definitions loop stops at the first definition whose kind is the entity. |
| Comparator.ScanMessagesFinds | internal/validator/comparator.go:202-228 | The messages loop stops at the first resource that lists the pattern or has the entity's kind. |
| Comparator.SkipAsWrittenOnlyByPattern | internal/validator/comparator.go:175-179 | As written, a collection is skipped iff its pattern is well-known. The well-known-name test can never hold. |
| Comparator.SkipAsWrittenMissesWellKnownName | internal/validator/comparator.go:175-179 | The collection ("project", "projects/{project_id}") has a well-known entity name but is not skipped as written. |
| Comparator.SkipCorrected | internal/validator/comparator.go:175-179 | The corrected skip applies to every well-known entity name, and otherwise agrees with the written skip. |
| Comparator.CollectionDiagnostics | internal/validator/comparator.go:173-235 | With the skip as written, a skipped collection gives nothing. Otherwise the first decisive site settles it: silent when that site lists the pattern, else a lacks-pattern report naming the site. With no decisive site there is one no-definition report. |
| Comparator.WellKnownEntityReported | internal/validator/comparator.go:173-235 | As written, the collection ("project", "projects/{project_id}") is reported as having no definition over an empty file set, although "project" is a well-known name. |
| Comparator.CorrectedCollectionDiagnostics | internal/validator/comparator.go:173-235 | With the corrected skip, a collection with a well-known entity name gives nothing. Any other collection gets the check as written. |
| Comparator.CompareResources | internal/validator/comparator.go:173-235 | At most one report per collection. Every collection's report appears, and every diagnostic is one collection's report. The result is silent iff every collection is. Every report concerns a missing definition or a missing pattern. |
| Comparator.ResolveServiceByName | internal/validator/comparator.go:337-345 | The service found has that name and comes from the first file, in order, that declares it. None means no file declares it. |
| Comparator.LocateIn | internal/validator/comparator.go:347-357 | The message found in a file is package + "." + name of that file. |
| Comparator.ResolveMsgByLocalName | internal/validator/comparator.go:347-357 | The message found is package + "." + name of the first file, in order, whose package holds that name. None means no file's package holds that name. |
| Comparator.ResolveRefFromCollections | internal/validator/comparator.go:359-375 | The collection found has the entity name. None means no collection has it. A top-level collection wins over any interface's. |
| Comparator.FindInCollections | internal/validator/comparator.go:360-364 | The top-level loop returns the first collection with the entity name. |
| Comparator.FindInInterfaces | internal/validator/comparator.go:366-372 | The interface loops return the first collection with the entity name, interface by interface. |
| Comparator.HasPatternWithPrefix | internal/validator/comparator.go:293-300 | True iff some pattern starts with the prefix. |
| Comparator.ChildDiagnostics | internal/validator/comparator.go:278-306 | A child_type that does not resolve gives exactly one undefined-child report. Otherwise the entity is reported iff it is in no collection, and the child is reported iff its resource has no pattern extending the collection's. |
| Comparator.ChildWithSlashUndefined | internal/validator/comparator.go:278-283 | On a parsed file a "service/Kind" child_type never resolves, so the child branch always ends with the undefined-child report. |
| Comparator.UnknownEntityAcceptsAnyChild | internal/validator/comparator.go:288-300 | With the entity in no collection, the nil getter yields "", so any child resource with a pattern counts as a proper child. |
| Comparator.FieldRefDiagnostics | internal/validator/comparator.go:257-312 | The type checked is the field's resource_reference, else the message's own resource. With neither there is exactly one missing-reference report. An empty type goes to the child branch. Otherwise the field is silent iff the type is well-known or its kind is the CamelCase entity, and else it gets exactly one kind-mismatch report. |
| Comparator.KindOf | internal/validator/comparator.go:309-310 | The kind is the part of the type after its first '/': the type is a '/'-free prefix, then '/', then the kind. A type without '/' is its own kind. |
| Comparator.MappedFieldDiagnostics | internal/validator/comparator.go:249-313 | A dotted field name gives nothing. A field the message lacks gives exactly one report. Any other field gets the field's reference check. |
| Comparator.EntryDiagnostics | internal/validator/comparator.go:249-313 | Every entry's reports appear, and every diagnostic is the report of one entry. Every undotted field name that the message lacks is reported. The entries are silent iff every undotted name is a field whose reference check is silent. |
| Comparator.GenerationDiagnostics | internal/validator/comparator.go:238-248 | Messages under google.iam.v1 are skipped. A message not found by local name gives exactly one report. Otherwise the reports are exactly those of the field_entity_map entries on the message found. |
| Comparator.CompareResourceRefs | internal/validator/comparator.go:237-315 | Every item's reports appear, and every diagnostic is a report of one item. The result is silent iff every item is. |
| Comparator.MethodConfigDiagnostics | internal/validator/comparator.go:59-69 | A missing method gives exactly one report with the interface-qualified name. A found method gets exactly its method comparison. The config is silent iff the service has the method and the method mirrors the config. |
| Comparator.MethodsDiagnostics | internal/validator/comparator.go:59-69 | Every method config's reports appear, and every diagnostic is a report of one config. A missing method is reported with the interface-qualified name. The configs are silent iff every configured method exists and mirrors its config. |
| Comparator.InterfaceDiagnostics | internal/validator/comparator.go:49-71 | An interface with no service is reported alone. Otherwise its collections are checked, then its methods. |
| Comparator.CompareServices | internal/validator/comparator.go:49-71 | Every interface without a service is reported. Every interface's reports appear, and every diagnostic is a report of one interface. The result is silent iff every interface is. |
| Comparator.Compare | internal/validator/comparator.go:41-47 | The interface comparison comes first and the resource-reference comparison forms the rest, with nothing else. Every interface without a service is reported. |
| LcsDiff.LcsCell | cmd/gapic-error-conformance/main.go:433-443 | Each table cell satisfies the longest-common-subsequence recurrence on the last lines. |
| LcsDiff.DropLastA | cmd/gapic-error-conformance/main.go:430-444 | Dropping the last line of the first text loses at most one common line. |
| LcsDiff.DropLastB | cmd/gapic-error-conformance/main.go:430-444 | Dropping the last line of the second text loses at most one common line. |
| LcsDiff.ScriptBound | cmd/gapic-error-conformance/main.go:446-467 | No edit script keeps more common lines than the longest common subsequence of the texts it walks through. |
| LcsDiff.FillTable | cmd/gapic-error-conformance/main.go:423-444 | Every cell (r, s) holds the LCS length of the first r and first s lines. |
| LcsDiff.Backtrack | cmd/gapic-error-conformance/main.go:446-467 | The edit script walks through both texts exactly, and keeps as many lines as their LCS. |
| LcsDiff.KeepStep | cmd/gapic-error-conformance/main.go:453-457 | Taking a common last line moves both sides back one line and keeps exactly one common line, so the script plus the remaining LCS stays at the full LCS. |
| LcsDiff.FromBStep | cmd/gapic-error-conformance/main.go:458-461 | Taking a line of the second text when that keeps at least as long a common subsequence loses no common line. |
| LcsDiff.FromAStep | cmd/gapic-error-conformance/main.go:462-465 | Taking a line of the first text when the second choice would lose a common line loses none. |
| LcsDiff.Print | cmd/gapic-error-conformance/main.go:469-476 | The output is the script in text order, each line as sign, space, text and newline. |
| LcsDiff.Diff | cmd/gapic-error-conformance/main.go:417-477 | lcsDiff prints an optimal edit script of its two inputs. |
| LcsDiff.SingleLineLcs | cmd/gapic-error-conformance/main.go:129-137 | A one-line text shares at most one line with another text, and shares one iff that line is among the other's lines. |
| LcsDiff.Compare | cmd/gapic-error-conformance/main.go:129-137 | There is no error iff the expected message occurs in the validator's output. Otherwise the error is the header plus a diff of the message against the ';'-pieces of the output in which no line is common. |
| LcsDiff.NoKeepWhenUnmatched | cmd/gapic-error-conformance/main.go:129-137 | A script that keeps no line has no kept line anywhere. |
| Fixtures.DefaultHostCases | internal/validator/validator_test.go:81-131 | The four default_host cases of the test give the expected reports. |
| Fixtures.MissingInfoCases | internal/validator/validator_test.go:220-221 | A method without options, and one without operation_info, each get one missing-info report. |
| Fixtures.MissingTypesCase | internal/validator/validator_test.go:222 | Empty response and metadata types give both missing reports, response first. |
| Fixtures.UnresolvableTypesCase | internal/validator/validator_test.go:223 | "FooMessage" and "bar.BazMessage" are both unresolvable in the test's file set. |
| Fixtures.ResolvableTypesCase | internal/validator/validator_test.go:224 | A local bare name and a name qualified with another file's package both resolve. |
| Fixtures.MissingTypeCase | internal/validator/validator_test.go:384 | The Wobble resource, which has no type, gets exactly the missing-type report. |
| Fixtures.EmptyReferenceCase | internal/validator/validator_test.go:388 | The reference with an empty type on Baz.c gets exactly the format report. |

## Left out

- Descriptor creation and parameter parsing: `desc.CreateFileDescriptors`, `parseParameters` and the YAML decoding of the legacy config (comparator.go:377-409). These are I/O and external libraries. The config arrives already decoded, and their error returns are not modelled.
- The `ext` helper and proto extension reflection: annotations are typed optional fields of the records.
- `%q` quoting: `Q` wraps in double quotes without Go's escaping. Lengths are counted in characters, not UTF-8 bytes. Upper/lower-case mapping covers ASCII letters only.
- Go map iteration order (`v.files`, the comparator's loops over files, and `field_entity_map`): the file set is a sequence, and every "first" is relative to it.
- Plugin.Generate: it requires `GeneratedWalkable`, meaning every file the loop validates must have walkable signatures. Those files are the ones named before the first name without a descriptor. For a validated file that is not walkable, Go panics as described in the next line.
- Validator.WalkPath: a non-final path component that is a scalar or an unknown message type makes Go dereference a nil message descriptor and panic. The model excludes those inputs with the precondition `Walkable` and does not model the panic.
- Validator.ReferenceDiagnostics: only top-level messages are validated (validate loops over `GetMessageTypes`). Nested messages are visible only to lookups.
- The `requiredAfterOptional` and `resRefFieldDNE` templates (validator.go:45, validator.go:50): no code emits them, so no check exists for them.
- Resolver.ResolveResRefMessage: the source declares a third parameter, `serv`, which is unused and which both callers omit. The model has two parameters.
- The error text is joined with "\n", as `addError` does. The comment above it says a semicolon.
- The resource-kind regular expression is unanchored (`MatchString`), so "fooBar" passes because "Ba" matches. The model follows the code.
- validator_test.go:380 and :382 expect no report for Bar and Qux. As written, `validateResRef` resolves "foo.bar.com/Foo" as the message "annotated.foo.bar.com/Foo", which cannot exist, and "cloud.googleapis.com/Location" is not in `wellKnownTypes`. So the code reports both fields, and the model follows the code (see Validator.WellFormedReferenceAlwaysReported).
- The remaining test cases (the annotated.proto messages Foo, Wibble, Wubble, Flob and Biz, and the method_signature case) are not restated as concrete fixtures, because evaluating the literal descriptors is too costly for the verifier. The rules they exercise are stated for all inputs by Validator.ValidateResRef, Validator.ValidateResourceDescriptor, Validator.SignatureReportsPaths and Validator.MethodAccepted.
- Plugin.Generate: its diagnostics are stated through GenerateStep and GenerateStopsAtMissing rather than a closed form.
- The rest of main.go in the conformance tool (running both plugins, scenarios, the reporting agent): this is process plumbing.

## Findings

| source | as written | input that shows it | evidently intended | confidence | as-written member | corrected member |
|---|---|---|---|---|---|---|
| internal/validator/comparator.go:175-179 | A collection is skipped if its pattern is well-known or if `wellKnownNames[snakeToCamel(entityName)]` holds. `snakeToCamel` upper-cases the first letter, while every key of `wellKnownNames` is lower-case, so the second test never holds. | the collection (entity "project", pattern "projects/{project_id}") is not skipped, so it is checked against the resource definitions | skip when the entity name itself is well-known | medium; not executed | Comparator.WellKnownEntityReported | Comparator.CorrectedCollectionDiagnostics |

Comparator.CompareResources, and so Comparator.Compare and Plugin.Validate, run the check as written. Comparator.CorrectedCollectionDiagnostics is the same check with the intended skip.

=== FILE: comparator.dfy ===
/** The comparison of the annotations with a legacy GAPIC configuration
    (comparator.go): interfaces against services, collections against
    resource definitions, method configs against method annotations, and
    resource_name_generation entries against resource references. */
module Comparator {
  import opened Wrappers
  import opened Search
  import opened GoStrings
  import opened Descriptors
  import opened Config
  import opened Diagnostics
  import Resolver
  import Validator

  /** Name patterns of the well-known resources. */
  const WellKnownPatterns: set<string> := {
    "projects/{project}",
    "organizations/{organization}",
    "folders/{folder}",
    "projects/{project}/locations/{location}",
    "billingAccounts/{billing_account_id}"
  }

  /** Entity names of the well-known resources. */
  const WellKnownNames: set<string> := {"project", "organization", "folder", "location"}

  /** Method names the comparison ignores. */
  const IamMethods: set<string> := {"GetIamPolicy", "SetIamPolicy", "TestIamPermissions"}

  /** resource_name_generation entries for messages under this prefix are skipped. */
  const IamPackagePrefix := "google.iam.v1"

  // ---------------------------------------------------------------------
  // Helpers

  /** The linear membership scan of containStr and containBehavior. */
  function Contain<T(==)>(arr: seq<T>, x: T): (r: bool)
    ensures r <==> x in arr
  {
    if |arr| == 0 then false else arr[0] == x || Contain(arr[1..], x)
  }

  /** The loop of snakeToCamel from a given state of its `up` flag: an
      underscore is dropped and sets the flag, any other character is
      upper-cased if the flag is set (clearing it) and lower-cased otherwise. */
  function CamelFrom(s: string, up: bool): (r: string)
    ensures |r| == |s| - Count(s, '_')
    ensures '_' !in r
    ensures up && |r| > 0 ==> !IsLower(r[0])
  {
    if |s| == 0 then ""
    else if s[0] == '_' then CamelFrom(s[1..], true)
    else [if up then ToUpper(s[0]) else ToLower(s[0])] + CamelFrom(s[1..], false)
  }

  /** snakeToCamel: snake_case and SNAKE_CASE to CamelCase. The result has
      no underscore, one character per non-underscore character of the
      input, and never starts with a lower-case letter. */
  function SnakeToCamel(s: string): (r: string)
    ensures |r| == |s| - Count(s, '_')
    ensures '_' !in r
    ensures |r| > 0 ==> !IsLower(r[0])
  {
    CamelFrom(s, true)
  }

  /** Every character lower-cased. */
  function LowerAll(w: string): (r: string)
    ensures |r| == |w|
  {
    if |w| == 0 then "" else [ToLower(w[0])] + LowerAll(w[1..])
  }

  /** A word with its first character upper-cased and the rest lower-cased. */
  function Capitalize(w: string): string
  {
    if |w| == 0 then "" else [ToUpper(w[0])] + LowerAll(w[1..])
  }

  /** The capitalised words, concatenated. */
  function CapitalizeAll(ws: seq<string>): string
  {
    if |ws| == 0 then "" else Capitalize(ws[0]) + CapitalizeAll(ws[1..])
  }

  /** snakeToCamel is "split at underscores, capitalise every word, join
      without separator". */
  lemma SnakeToCamelByWords(s: string)
    ensures SnakeToCamel(s) == CapitalizeAll(Split(s, '_'))
  {
    CamelFromByWords(s);
  }

  lemma {:induction false} CamelFromByWords(s: string)
    ensures CamelFrom(s, true) == CapitalizeAll(Split(s, '_'))
    ensures CamelFrom(s, false) == LowerAll(Split(s, '_')[0]) + CapitalizeAll(Split(s, '_')[1..])
  {
    if |s| > 0 {
      CamelFromByWords(s[1..]);
      if s[0] == '_' {
        UnderscoreStep(s);
      } else {
        LetterStep(s);
      }
    }
  }

  /** An underscore starts a new word, capitalised in either state. */
  lemma UnderscoreStep(s: string)
    requires |s| > 0 && s[0] == '_'
    requires CamelFrom(s[1..], true) == CapitalizeAll(Split(s[1..], '_'))
    ensures CamelFrom(s, true) == CapitalizeAll(Split(s, '_'))
    ensures CamelFrom(s, false) == LowerAll(Split(s, '_')[0]) + CapitalizeAll(Split(s, '_')[1..])
  {
    var rest := Split(s[1..], '_');
    assert Split(s, '_') == [""] + rest;
    assert ([""] + rest)[1..] == rest;
  }

  /** Any other character extends the current word. */
  lemma LetterStep(s: string)
    requires |s| > 0 && s[0] != '_'
    requires CamelFrom(s[1..], false) == LowerAll(Split(s[1..], '_')[0]) + CapitalizeAll(Split(s[1..], '_')[1..])
    ensures CamelFrom(s, true) == CapitalizeAll(Split(s, '_'))
    ensures CamelFrom(s, false) == LowerAll(Split(s, '_')[0]) + CapitalizeAll(Split(s, '_')[1..])
  {
    var r := CamelFrom(s[1..], false);
    assert CamelFrom(s, true) == [ToUpper(s[0])] + r;
    assert CamelFrom(s, false) == [ToLower(s[0])] + r;
    FirstWord(s);
  }

  /** Split's view of a text that does not start with an underscore: the
      first word grows by that character, the later words stay. */
  lemma FirstWord(s: string)
    requires |s| > 0 && s[0] != '_'
    ensures var rest := Split(s[1..], '_');
            var words := LowerAll(rest[0]) + CapitalizeAll(rest[1..]);
            && CapitalizeAll(Split(s, '_')) == [ToUpper(s[0])] + words
            && LowerAll(Split(s, '_')[0]) + CapitalizeAll(Split(s, '_')[1..]) == [ToLower(s[0])] + words
  {
    var rest := Split(s[1..], '_');
    var w := [s[0]] + rest[0];
    var sp := Split(s, '_');
    var tail := CapitalizeAll(rest[1..]);
    assert sp[0] == w && sp[1..] == rest[1..] by {
      assert sp == [w] + rest[1..];
    }
    assert w[0] == s[0] && w[1..] == rest[0];
    var up, low := [ToUpper(s[0])], [ToLower(s[0])];
    assert CapitalizeAll(sp) == (up + LowerAll(rest[0])) + tail;
    assert LowerAll(sp[0]) + CapitalizeAll(sp[1..]) == (low + LowerAll(rest[0])) + tail;
    Search.AppendAssoc(up, LowerAll(rest[0]), tail);
    Search.AppendAssoc(low, LowerAll(rest[0]), tail);
  }

  /** The local name of a message reference: the text after the last '.',
      or the whole text when it has none. */
  function LocalName(s: string): (r: string)
    ensures '.' !in r && |r| <= |s| && r == s[|s| - |r|..]
    ensures '.' !in s ==> r == s
  {
    AfterLast(s, '.')
  }

  /** A qualified and an unqualified reference to the same message have the same local name. */
  lemma LocalNameOfQualified(pkg: string, name: string)
    requires '.' !in name
    ensures LocalName(pkg + "." + name) == name
  {
    var s := pkg + "." + name;
    LastIndexOfAppend(pkg, '.', name);
    assert s[|pkg|] == '.';
    assert s[|pkg| + 1..] == name;
  }

  // ---------------------------------------------------------------------
  // Methods

  /** The google.api.method_signature list, None when absent. */
  function SignatureList(m: Method): Option<seq<string>>
  {
    if m.options.None? then None else m.options.value.signatures
  }

  /** One diagnostic per flattening group whose comma-joined parameters are
      not among the method signatures, in group order. */
  function GroupDiagnostics(rpc: string, sigs: seq<string>, groups: seq<FlatteningGroup>): (ds: seq<Diagnostic>)
    ensures |ds| <= |groups|
    ensures ds == [] <==> forall g :: g in groups ==> Join(g.parameters, ',') in sigs
    ensures forall g :: g in groups && Join(g.parameters, ',') !in sigs ==>
              MissingFlatteningSignature(rpc, Join(g.parameters, ',')) in ds
    ensures forall d :: d in ds ==> d.MissingFlatteningSignature? && d.rpc == rpc && d.joined !in sigs
  {
    if |groups| == 0 then []
    else
      var joined := Join(groups[0].parameters, ',');
      var rest := GroupDiagnostics(rpc, sigs, groups[1..]);
      assert forall g :: g in groups && g != groups[0] ==> g in groups[1..];
      (if !Contain(sigs, joined) then [MissingFlatteningSignature(rpc, joined)] else []) + rest
  }

  /** Every flattening group appears, comma-joined, among the signatures. */
  ghost predicate FlatteningMirrored(sigs: Option<seq<string>>, flattening: Option<FlatteningConfig>)
  {
    flattening.Some? ==>
      sigs.Some? && forall g :: g in flattening.value.groups ==> Join(g.parameters, ',') in sigs.value
  }

  /** The flattening stage of compareMethod. */
  function FlatteningDiagnostics(rpc: string, sigs: Option<seq<string>>, flattening: Option<FlatteningConfig>): (ds: seq<Diagnostic>)
    ensures ds == [] <==> FlatteningMirrored(sigs, flattening)
    ensures flattening.Some? && sigs.None? ==> ds == [MissingSignatures(rpc)]
    ensures forall d :: d in ds ==> d == MissingSignatures(rpc) || (d.MissingFlatteningSignature? && d.rpc == rpc)
  {
    match flattening
    case None => []
    case Some(fl) =>
      match sigs
      case None => [MissingSignatures(rpc)]
      case Some(ss) =>
        GroupDiagnostics(rpc, ss, fl.groups)
  }

  /** The operation_info agrees with the long_running config up to local names. */
  ghost predicate LongRunningMirrored(info: Option<OperationInfo>, lro: Option<LongRunningConfig>)
  {
    lro.Some? ==>
      && info.Some?
      && LocalName(info.value.responseType) == LocalName(lro.value.returnType)
      && LocalName(info.value.metadataType) == LocalName(lro.value.metadataType)
  }

  /** The long-running stage of compareMethod: the response types, then
      the metadata types, compared by local name. */
  function OperationInfoDiagnostics(rpc: string, info: Option<OperationInfo>, lro: Option<LongRunningConfig>): (ds: seq<Diagnostic>)
    ensures ds == [] <==> LongRunningMirrored(info, lro)
    ensures lro.Some? && info.None? ==> ds == [MissingOperationInfo(rpc)]
    ensures lro.Some? && info.Some? ==>
              var protoRes, gapicRes := LocalName(info.value.responseType), LocalName(lro.value.returnType);
              var protoMeta, gapicMeta := LocalName(info.value.metadataType), LocalName(lro.value.metadataType);
              && (ResponseTypeMismatch(rpc, protoRes, gapicRes) in ds <==> protoRes != gapicRes)
              && (MetadataTypeMismatch(rpc, protoMeta, gapicMeta) in ds <==> protoMeta != gapicMeta)
              && |ds| <= 2
  {
    match lro
    case None => []
    case Some(l) =>
      match info
      case None => [MissingOperationInfo(rpc)]
      case Some(i) =>
        TypeMismatches(rpc, LocalName(i.responseType), LocalName(l.returnType),
                       LocalName(i.metadataType), LocalName(l.metadataType))
  }

  /** The two local-name comparisons of the long-running stage. */
  function TypeMismatches(rpc: string, protoRes: string, gapicRes: string, protoMeta: string, gapicMeta: string): (ds: seq<Diagnostic>)
    ensures ds == [] <==> protoRes == gapicRes && protoMeta == gapicMeta
    ensures ResponseTypeMismatch(rpc, protoRes, gapicRes) in ds <==> protoRes != gapicRes
    ensures MetadataTypeMismatch(rpc, protoMeta, gapicMeta) in ds <==> protoMeta != gapicMeta
    ensures |ds| <= 2
  {
    (if protoRes != gapicRes then [ResponseTypeMismatch(rpc, protoRes, gapicRes)] else [])
    + (if protoMeta != gapicMeta then [MetadataTypeMismatch(rpc, protoMeta, gapicMeta)] else [])
  }

  /** The input message has the field, annotated with field_behavior REQUIRED. */
  ghost predicate RequiredAnnotated(input: Message, name: string)
  {
    exists f :: f in input.fields && f.name == name && FindField(input, name) == Some(f)
                && f.behavior.Some? && Required in f.behavior.value
  }

  /** The check of one required_fields entry. */
  function RequiredFieldCheck(rpc: string, input: Message, name: string): (ds: seq<Diagnostic>)
    ensures ds == [] <==> RequiredAnnotated(input, name)
    ensures FindField(input, name).None? ==> ds == [RequiredFieldDne(name, rpc, input.fqn)]
    ensures FindField(input, name).Some? ==>
              var f := FindField(input, name).value;
              && (f.behavior.None? ==> ds == [MissingFieldBehavior(FieldFqn(input, f))])
              && (f.behavior.Some? && Required !in f.behavior.value ==> ds == [FieldNotRequired(FieldFqn(input, f))])
  {
    match FindField(input, name)
    case None => [RequiredFieldDne(name, rpc, input.fqn)]
    case Some(f) =>
      match f.behavior
      case None => [MissingFieldBehavior(FieldFqn(input, f))]
      case Some(b) => if Contain(b, Required) then [] else [FieldNotRequired(FieldFqn(input, f))]
  }

  /** The required_fields stage of compareMethod, in entry order. */
  function RequiredFieldDiagnostics(rpc: string, input: Message, names: seq<string>): (ds: seq<Diagnostic>)
    ensures |ds| <= |names|
    ensures ds == [] <==> forall n :: n in names ==> RequiredAnnotated(input, n)
    ensures forall n, d :: n in names && d in RequiredFieldCheck(rpc, input, n) ==> d in ds
    ensures forall d :: d in ds ==> exists n :: n in names && d in RequiredFieldCheck(rpc, input, n)
    ensures forall n :: n in names && FindField(input, n).None? ==> RequiredFieldDne(n, rpc, input.fqn) in ds
  {
    if |names| == 0 then []
    else
      var here := RequiredFieldCheck(rpc, input, names[0]);
      var rest := RequiredFieldDiagnostics(rpc, input, names[1..]);
      assert forall n :: n in names ==> n == names[0] || n in names[1..];
      here + rest
  }

  /** The method's annotations carry everything its legacy config states. */
  ghost predicate Mirrors(m: Method, mc: MethodConfig)
  {
    && FlatteningMirrored(SignatureList(m), mc.flattening)
    && LongRunningMirrored(Validator.OperationInfoOf(m), mc.longRunning)
    && forall n :: n in mc.requiredFields ==> RequiredAnnotated(m.input, n)
  }

  /** compareMethod: nothing for an IAM method; otherwise the flattening,
      long-running and required-field stages in that order. It is silent
      exactly when the method is an IAM method or its annotations mirror
      the config. */
  function CompareMethod(m: Method, mc: MethodConfig): (ds: seq<Diagnostic>)
    ensures mc.name in IamMethods ==> ds == []
    ensures ds == [] <==> mc.name in IamMethods || Mirrors(m, mc)
    ensures mc.name !in IamMethods ==> FlatteningDiagnostics(m.fqn, SignatureList(m), mc.flattening) <= ds
    ensures mc.name !in IamMethods ==>
              var f := FlatteningDiagnostics(m.fqn, SignatureList(m), mc.flattening);
              var o := OperationInfoDiagnostics(m.fqn, Validator.OperationInfoOf(m), mc.longRunning);
              var r := RequiredFieldDiagnostics(m.fqn, m.input, mc.requiredFields);
              && |ds| == |f| + |o| + |r|
              && ds[|f|..|f| + |o|] == o
              && ds[|f| + |o|..] == r
  {
    if mc.name in IamMethods then []
    else
      FlatteningDiagnostics(m.fqn, SignatureList(m), mc.flattening)
      + OperationInfoDiagnostics(m.fqn, Validator.OperationInfoOf(m), mc.longRunning)
      + RequiredFieldDiagnostics(m.fqn, m.input, mc.requiredFields)
  }

  // ---------------------------------------------------------------------
  // Collections

  /** A place a collection can be decided at: a file-level resource
      definition (owner: the file name) or a message's resource (owner:
      the message name). */
  datatype Site = Site(typ: string, patterns: seq<string>, owner: string, isDefinition: bool)

  /** The resource_type_kind of a type: the text after the first '/'. */
  function KindOf(typ: string): (k: string)
    ensures '/' !in typ ==> k == typ
    ensures '/' in typ ==> |k| < |typ| && typ == typ[..|typ| - |k| - 1] + "/" + k && '/' !in typ[..|typ| - |k| - 1]
  {
    AfterFirst(typ, '/')
  }

  /** A site decides the collection (entity, pattern) when its kind is the
      entity, or, for a message resource, when it lists the pattern. */
  predicate Decisive(s: Site, ent: string, pat: string)
  {
    KindOf(s.typ) == ent || (!s.isDefinition && pat in s.patterns)
  }

  function DecisiveFor(ent: string, pat: string): Site -> bool
  {
    (s: Site) => Decisive(s, ent, pat)
  }

  function DefinitionSites(defs: seq<ResourceDescriptor>, fileName: string): (ss: seq<Site>)
    ensures |ss| == |defs|
  {
    if |defs| == 0 then [] else [Site(defs[0].typ, defs[0].patterns, fileName, true)] + DefinitionSites(defs[1..], fileName)
  }

  function MessageSites(msgs: seq<Message>): seq<Site>
  {
    if |msgs| == 0 then []
    else
      var m := msgs[0];
      (if m.resource.Some? then [Site(m.resource.value.typ, m.resource.value.patterns, m.fqn, false)] else [])
      + MessageSites(msgs[1..])
  }

  /** All sites of the file set in the order compareResources visits them:
      per file, its resource definitions, then its top-level messages. */
  function Sites(files: seq<File>): seq<Site>
  {
    if |files| == 0 then []
    else DefinitionSites(files[0].resourceDefinitions, files[0].name) + MessageSites(files[0].messages) + Sites(files[1..])
  }

  /** The loop over a file's resource definitions: the first whose kind is the entity. */
  function ScanDefinitions(defs: seq<ResourceDescriptor>, fileName: string, ent: string): Option<Site>
  {
    if |defs| == 0 then None
    else if ent == KindOf(defs[0].typ) then Some(Site(defs[0].typ, defs[0].patterns, fileName, true))
    else ScanDefinitions(defs[1..], fileName, ent)
  }

  /** The loop over a file's messages: skip one without a resource; stop at
      one that lists the pattern or whose kind is the entity. */
  function ScanMessages(msgs: seq<Message>, ent: string, pat: string): Option<Site>
  {
    if |msgs| == 0 then None
    else match msgs[0].resource
      case None => ScanMessages(msgs[1..], ent, pat)
      case Some(res) =>
        if Contain(res.patterns, pat) || KindOf(res.typ) == ent then Some(Site(res.typ, res.patterns, msgs[0].fqn, false))
        else ScanMessages(msgs[1..], ent, pat)
  }

  /** The loop over files, each scanned definitions first. */
  function ScanFiles(files: seq<File>, ent: string, pat: string): Option<Site>
  {
    if |files| == 0 then None
    else
      var d := ScanDefinitions(files[0].resourceDefinitions, files[0].name, ent);
      if d.Some? then d
      else
        var m := ScanMessages(files[0].messages, ent, pat);
        if m.Some? then m else ScanFiles(files[1..], ent, pat)
  }

  lemma {:induction false} ScanDefinitionsFinds(defs: seq<ResourceDescriptor>, fileName: string, ent: string, pat: string)
    ensures ScanDefinitions(defs, fileName, ent) == Find(DefinitionSites(defs, fileName), DecisiveFor(ent, pat))
  {
    if |defs| > 0 {
      var ss := DefinitionSites(defs, fileName);
      assert ss[1..] == DefinitionSites(defs[1..], fileName);
      ScanDefinitionsFinds(defs[1..], fileName, ent, pat);
    }
  }

  lemma {:induction false} ScanMessagesFinds(msgs: seq<Message>, ent: string, pat: string)
    ensures ScanMessages(msgs, ent, pat) == Find(MessageSites(msgs), DecisiveFor(ent, pat))
  {
    if |msgs| > 0 {
      ScanMessagesFinds(msgs[1..], ent, pat);
      var m := msgs[0];
      if m.resource.Some? {
        var s := Site(m.resource.value.typ, m.resource.value.patterns, m.fqn, false);
        var ss := MessageSites(msgs);
        assert ss == [s] + MessageSites(msgs[1..]);
        assert ss[0] == s && ss[1..] == MessageSites(msgs[1..]);
      } else {
        assert MessageSites(msgs) == MessageSites(msgs[1..]);
      }
    }
  }

  /** The nested loops of compareResources decide a collection at the first
      decisive site of the whole file set. */
  lemma {:induction false} ScanFilesFinds(files: seq<File>, ent: string, pat: string)
    ensures ScanFiles(files, ent, pat) == Find(Sites(files), DecisiveFor(ent, pat))
  {
    if |files| > 0 {
      var p := DecisiveFor(ent, pat);
      var defs := DefinitionSites(files[0].resourceDefinitions, files[0].name);
      var msgs := MessageSites(files[0].messages);
      ScanDefinitionsFinds(files[0].resourceDefinitions, files[0].name, ent, pat);
      ScanMessagesFinds(files[0].messages, ent, pat);
      ScanFilesFinds(files[1..], ent, pat);
      FindAppend(defs + msgs, Sites(files[1..]), p);
      FindAppend(defs, msgs, p);
    }
  }

  /** The skip of compareResources as written: the CamelCase form of the
      entity name is looked up among the lower-case well-known names. */
  predicate SkipAsWritten(coll: CollectionConfig)
  {
    coll.namePattern in WellKnownPatterns || SnakeToCamel(coll.entityName) in WellKnownNames
  }

  /** The well-known name half of the written skip never applies: no
      CamelCase name starts with a lower-case letter, and every well-known
      name does. */
  lemma SkipAsWrittenOnlyByPattern(coll: CollectionConfig)
    ensures SkipAsWritten(coll) <==> coll.namePattern in WellKnownPatterns
  {
    var c := SnakeToCamel(coll.entityName);
    assert c !in WellKnownNames by {
      assert forall n :: n in WellKnownNames ==> |n| > 0 && IsLower(n[0]);
    }
  }

  /** A collection with the entity "project" and a non-standard pattern is
      not skipped as written, although its entity name is well-known. */
  lemma SkipAsWrittenMissesWellKnownName()
    ensures var coll := CollectionConfig("project", "projects/{project_id}");
            coll.entityName in WellKnownNames && !SkipAsWritten(coll)
  {
    SkipAsWrittenOnlyByPattern(CollectionConfig("project", "projects/{project_id}"));
  }

  /** The skip as evidently intended: a well-known pattern or a well-known entity name. */
  predicate Skip(coll: CollectionConfig)
  {
    coll.namePattern in WellKnownPatterns || coll.entityName in WellKnownNames
  }

  /** The corrected skip applies to every well-known entity name, and
      otherwise agrees with the written one. */
  lemma SkipCorrected(coll: CollectionConfig)
    ensures coll.entityName in WellKnownNames ==> Skip(coll)
    ensures coll.entityName !in WellKnownNames ==> (Skip(coll) <==> SkipAsWritten(coll))
  {
    SkipAsWrittenOnlyByPattern(coll);
  }

  /** The check of one collection, with the skip as written: nothing when
      skipped; otherwise the first decisive site settles it (silent when
      that site lists the pattern, a missing-pattern report naming it when
      not), and with no decisive site the collection has no resource
      definition. */
  function CollectionDiagnostics(files: seq<File>, coll: CollectionConfig): (ds: seq<Diagnostic>)
    ensures SkipAsWritten(coll) ==> ds == []
    ensures !SkipAsWritten(coll) ==>
              var ent, pat := SnakeToCamel(coll.entityName), coll.namePattern;
              var first := Find(Sites(files), DecisiveFor(ent, pat));
              && (first.None? ==> ds == [NoResourceDefinition(coll.entityName, pat)])
              && (first.Some? && pat in first.value.patterns ==> ds == [])
              && (first.Some? && pat !in first.value.patterns ==>
                    ds == [DefinitionLacksPattern(first.value.typ, first.value.owner, pat)])
  {
    if SkipAsWritten(coll) then []
    else
      var ent, pat := SnakeToCamel(coll.entityName), coll.namePattern;
      ScanFilesFinds(files, ent, pat);
      match ScanFiles(files, ent, pat)
      case None => [NoResourceDefinition(coll.entityName, pat)]
      case Some(site) =>
        if Contain(site.patterns, pat) then [] else [DefinitionLacksPattern(site.typ, site.owner, pat)]
  }

  /** A collection named after a well-known entity, whose pattern is not a
      well-known one and which no file defines, is reported as written. */
  lemma WellKnownEntityReported()
    ensures var coll := CollectionConfig("project", "projects/{project_id}");
            && coll.entityName in WellKnownNames
            && CollectionDiagnostics([], coll) == [NoResourceDefinition("project", "projects/{project_id}")]
  {
    var coll := CollectionConfig("project", "projects/{project_id}");
    SkipAsWrittenOnlyByPattern(coll);
    assert Sites([]) == [];
  }

  /** The check of one collection with the evidently intended skip: silent
      for every well-known entity name, and otherwise the check as written. */
  function CorrectedCollectionDiagnostics(files: seq<File>, coll: CollectionConfig): (ds: seq<Diagnostic>)
    ensures coll.entityName in WellKnownNames ==> ds == []
    ensures coll.entityName !in WellKnownNames ==> ds == CollectionDiagnostics(files, coll)
  {
    SkipCorrected(coll);
    if Skip(coll) then [] else CollectionDiagnostics(files, coll)
  }

  /** compareResources over an interface's collections, in order. */
  function CompareResources(files: seq<File>, colls: seq<CollectionConfig>): (ds: seq<Diagnostic>)
    ensures |ds| <= |colls|
    ensures ds == [] <==> forall c :: c in colls ==> CollectionDiagnostics(files, c) == []
    ensures forall c, d :: c in colls && d in CollectionDiagnostics(files, c) ==> d in ds
    ensures forall d :: d in ds ==> exists c :: c in colls && d in CollectionDiagnostics(files, c)
    ensures forall d :: d in ds ==> d.NoResourceDefinition? || d.DefinitionLacksPattern?
  {
    var check := (c: CollectionConfig) => CollectionDiagnostics(files, c);
    assert forall c :: check(c) == CollectionDiagnostics(files, c);
    Search.FlatMap(colls, check)
  }

  // ---------------------------------------------------------------------
  // Resolution against the file set and the config

  /** resolveServiceByName: the first file declaring the service. */
  function ResolveServiceByName(files: seq<File>, name: string): (r: Option<Service>)
    ensures r.Some? ==> r.value.fqn == name && exists i :: 0 <= i < |files| && r.value in files[i].services
    ensures r.None? <==> forall k :: 0 <= k < |files| ==> FindService(files[k], name).None?
    ensures r.Some? ==> exists i :: 0 <= i < |files| && FindService(files[i], name) == r
                                    && forall k :: 0 <= k < i ==> FindService(files[k], name).None?
  {
    var find := (f: File) => FindService(f, name);
    var r := FirstSome(files, find);
    if r.Some? then
      var i :| 0 <= i < |files| && find(files[i]) == r && NoneBefore(files, find, i);
      assert forall k :: 0 <= k < i ==> FindService(files[k], name).None? by {
        assert forall k :: 0 <= k < i ==> find(files[k]).None?;
      }
      r
    else r
  }

  /** A message together with the file that declares it. */
  datatype Located = Located(file: File, msg: Message)

  function LocateIn(f: File, name: string): (r: Option<Located>)
    ensures r.Some? ==> r.value.file == f && r.value.msg.fqn == Resolver.Qualify(f, name) && r.value.msg in AllMessages(f)
    ensures r.None? <==> FindMessage(f, Resolver.Qualify(f, name)).None?
  {
    match FindMessage(f, Resolver.Qualify(f, name))
    case None => None
    case Some(m) => Some(Located(f, m))
  }

  /** resolveMsgByLocalName: the first file whose package holds a message of that local name. */
  function ResolveMsgByLocalName(files: seq<File>, name: string): (r: Option<Located>)
    ensures r.Some? ==> r.value.file in files && r.value.msg.fqn == Resolver.Qualify(r.value.file, name)
                        && r.value.msg in AllMessages(r.value.file)
    ensures r.None? <==> forall k :: 0 <= k < |files| ==> FindMessage(files[k], Resolver.Qualify(files[k], name)).None?
    ensures r.Some? ==> exists i :: 0 <= i < |files| && r.value.file == files[i]
                                    && forall k :: 0 <= k < i ==> FindMessage(files[k], Resolver.Qualify(files[k], name)).None?
  {
    var locate := (f: File) => LocateIn(f, name);
    assert forall f :: locate(f) == LocateIn(f, name);
    var r := FirstSome(files, locate);
    if r.Some? then
      var i :| 0 <= i < |files| && locate(files[i]) == r && NoneBefore(files, locate, i);
      assert forall k :: 0 <= k < i ==> FindMessage(files[k], Resolver.Qualify(files[k], name)).None? by {
        assert forall k :: 0 <= k < i ==> locate(files[k]).None?;
      }
      r
    else r
  }

  /** The collections resolveRefFromCollections searches, in its order:
      the top-level ones, then each interface's. */
  function AllCollections(config: ConfigProto): seq<CollectionConfig>
  {
    config.collections + InterfaceCollections(config.interfaces)
  }

  function InterfaceCollections(inters: seq<InterfaceConfig>): seq<CollectionConfig>
  {
    if |inters| == 0 then [] else inters[0].collections + InterfaceCollections(inters[1..])
  }

  function NamedEntity(name: string): CollectionConfig -> bool
  {
    (c: CollectionConfig) => c.entityName == name
  }

  /** resolveRefFromCollections: a top-level collection with that entity
      name wins over any interface's. */
  function ResolveRefFromCollections(config: ConfigProto, name: string): (r: Option<CollectionConfig>)
    ensures r.Some? ==> r.value.entityName == name && r.value in AllCollections(config)
    ensures r.None? <==> forall c :: c in AllCollections(config) ==> c.entityName != name
    ensures Find(config.collections, NamedEntity(name)).Some? ==> r == Find(config.collections, NamedEntity(name))
  {
    FindAppend(config.collections, InterfaceCollections(config.interfaces), NamedEntity(name));
    var top := FindInCollections(config.collections, name);
    if top.Some? then top else FindInInterfaces(config.interfaces, name)
  }

  function FindInCollections(items: seq<CollectionConfig>, name: string): (r: Option<CollectionConfig>)
    ensures r == Find(items, NamedEntity(name))
  {
    if |items| == 0 then None
    else if items[0].entityName == name then Some(items[0])
    else FindInCollections(items[1..], name)
  }

  function FindInInterfaces(inters: seq<InterfaceConfig>, name: string): (r: Option<CollectionConfig>)
    ensures r == Find(InterfaceCollections(inters), NamedEntity(name))
  {
    if |inters| == 0 then None
    else
      FindAppend(inters[0].collections, InterfaceCollections(inters[1..]), NamedEntity(name));
      var here := FindInCollections(inters[0].collections, name);
      if here.Some? then here else FindInInterfaces(inters[1..], name)
  }

  // ---------------------------------------------------------------------
  // Resource references

  /** The (type, child_type) compareResourceRefs reads for a field: the
      field's resource_reference, else the message's own resource type with
      no child type, else None. */
  function ReferenceOf(msg: Message, f: Field): Option<(string, string)>
  {
    if f.resourceReference.Some? then Some((f.resourceReference.value.typ, f.resourceReference.value.childType))
    else if msg.resource.Some? then Some((msg.resource.value.typ, ""))
    else None
  }

  /** The name pattern a child must extend: the collection's pattern, or ""
      when the entity is in no collection (the nil-safe getter). */
  function ParentPattern(config: ConfigProto, entity: string): string
  {
    match ResolveRefFromCollections(config, entity)
    case None => ""
    case Some(c) => c.namePattern
  }

  /** Some pattern of the child resource starts with the parent pattern. */
  predicate ProperChild(res: ResourceDescriptor, prefix: string)
  {
    exists p :: p in res.patterns && prefix <= p
  }

  function HasPatternWithPrefix(patterns: seq<string>, prefix: string): (r: bool)
    ensures r <==> exists p :: p in patterns && prefix <= p
  {
    if |patterns| == 0 then false
    else if prefix <= patterns[0] then (assert patterns[0] in patterns; true)
    else
      var r := HasPatternWithPrefix(patterns[1..], prefix);
      assert forall p :: p in patterns && p != patterns[0] ==> p in patterns[1..];
      assert forall p :: p in patterns[1..] ==> p in patterns;
      r
  }

  /** The child_type branch: the child must resolve in the message's file;
      then the entity must be in a collection, and the child's resource (if
      any) must have a pattern extending the collection's. */
  function ChildDiagnostics(config: ConfigProto, loc: Located, f: Field, child: string, entity: string): (ds: seq<Diagnostic>)
    ensures var field := FieldFqn(loc.msg, f);
      && (Resolver.ResolveResRefMessage(child, loc.file).None? ==> ds == [ChildTypeUndefined(child, field)])
      && (Resolver.ResolveResRefMessage(child, loc.file).Some? ==>
            var childMsg := Resolver.ResolveResRefMessage(child, loc.file).value;
            && (EntityNotInCollections(entity) in ds <==> ResolveRefFromCollections(config, entity).None?)
            && (NotProperChild(field, child, entity) in ds <==>
                  childMsg.resource.Some? && !ProperChild(childMsg.resource.value, ParentPattern(config, entity)))
            && |ds| <= 2)
  {
    var field := FieldFqn(loc.msg, f);
    match Resolver.ResolveResRefMessage(child, loc.file)
    case None => [ChildTypeUndefined(child, field)]
    case Some(childMsg) =>
      var missing := if ResolveRefFromCollections(config, entity).None? then [EntityNotInCollections(entity)] else [];
      var improper :=
        match childMsg.resource
        case None => []
        case Some(res) =>
          if HasPatternWithPrefix(res.patterns, ParentPattern(config, entity)) then []
          else [NotProperChild(field, child, entity)];
      missing + improper
  }

  /** On a parsed file a child_type of the form service/Kind never resolves,
      so the child branch always ends with the undefined-child report. */
  lemma ChildWithSlashUndefined(config: ConfigProto, loc: Located, f: Field, child: string, entity: string)
    requires '/' in child
    requires NamesWithoutSlash(loc.file)
    ensures ChildDiagnostics(config, loc, f, child, entity) == [ChildTypeUndefined(child, FieldFqn(loc.msg, f))]
  {
    Resolver.ResRefWithSlashUnresolvable(child, loc.file);
  }

  /** With the entity in no collection, the prefix to extend is empty, so any
      child resource with a pattern counts as a proper child. */
  lemma UnknownEntityAcceptsAnyChild(config: ConfigProto, res: ResourceDescriptor, entity: string)
    requires ResolveRefFromCollections(config, entity).None?
    requires |res.patterns| > 0
    ensures ProperChild(res, ParentPattern(config, entity))
  {
    assert ParentPattern(config, entity) == "";
    assert res.patterns[0] in res.patterns;
  }

  /** The check of one field of a resource_name_generation entry. */
  function FieldRefDiagnostics(config: ConfigProto, loc: Located, f: Field, entity: string): (ds: seq<Diagnostic>)
    ensures ReferenceOf(loc.msg, f).None? ==> ds == [MissingResourceReference(FieldFqn(loc.msg, f), entity)]
    ensures ReferenceOf(loc.msg, f).Some? && ReferenceOf(loc.msg, f).value.0 == "" ==>
              ds == ChildDiagnostics(config, loc, f, ReferenceOf(loc.msg, f).value.1, entity)
    ensures ReferenceOf(loc.msg, f).Some? && ReferenceOf(loc.msg, f).value.0 != "" ==>
              var typ := ReferenceOf(loc.msg, f).value.0;
              && (ds == [] <==> typ in Validator.WellKnownTypes || KindOf(typ) == SnakeToCamel(entity))
              && (ds != [] ==> ds == [KindMismatch(FieldFqn(loc.msg, f), typ, entity)])
  {
    match ReferenceOf(loc.msg, f)
    case None => [MissingResourceReference(FieldFqn(loc.msg, f), entity)]
    case Some((typ, child)) =>
      if typ == "" then ChildDiagnostics(config, loc, f, child, entity)
      else if typ !in Validator.WellKnownTypes && KindOf(typ) != SnakeToCamel(entity) then
        [KindMismatch(FieldFqn(loc.msg, f), typ, entity)]
      else []
  }

  /** The check of one field_entity_map entry: a dotted field name is
      skipped, a field the message lacks is reported, any other field has
      its reference checked. */
  function MappedFieldDiagnostics(config: ConfigProto, loc: Located, entry: (string, string)): (ds: seq<Diagnostic>)
    ensures '.' in entry.0 ==> ds == []
    ensures '.' !in entry.0 && FindField(loc.msg, entry.0).None? ==> ds == [GenerationFieldDne(entry.0, loc.msg.fqn)]
    ensures '.' !in entry.0 && FindField(loc.msg, entry.0).Some? ==>
              ds == FieldRefDiagnostics(config, loc, FindField(loc.msg, entry.0).value, entry.1)
  {
    var (fname, entity) := entry;
    ContainsChar(fname, '.');
    if Contains(fname, ".") then []
    else match FindField(loc.msg, fname)
      case None => [GenerationFieldDne(fname, loc.msg.fqn)]
      case Some(f) => FieldRefDiagnostics(config, loc, f, entity)
  }

  /** The field_entity_map entries of one resource_name_generation item, in
      the order given. */
  function EntryDiagnostics(config: ConfigProto, loc: Located, entries: seq<(string, string)>): (ds: seq<Diagnostic>)
    ensures forall e :: e in entries && '.' !in e.0 && FindField(loc.msg, e.0).None? ==>
              GenerationFieldDne(e.0, loc.msg.fqn) in ds
    ensures forall e, d :: e in entries && d in MappedFieldDiagnostics(config, loc, e) ==> d in ds
    ensures forall d :: d in ds ==> exists e :: e in entries && d in MappedFieldDiagnostics(config, loc, e)
    ensures ds == [] <==> forall e :: e in entries && '.' !in e.0 ==>
              FindField(loc.msg, e.0).Some? && FieldRefDiagnostics(config, loc, FindField(loc.msg, e.0).value, e.1) == []
  {
    var check := (e: (string, string)) => MappedFieldDiagnostics(config, loc, e);
    assert forall e :: e in entries ==> check(e) == MappedFieldDiagnostics(config, loc, e);
    assert forall e: (string, string) :: '.' !in e.0 && FindField(loc.msg, e.0).None? ==> GenerationFieldDne(e.0, loc.msg.fqn) in check(e);
    assert forall e: (string, string) :: check(e) == [] <==>
             ('.' !in e.0 ==> FindField(loc.msg, e.0).Some? && FieldRefDiagnostics(config, loc, FindField(loc.msg, e.0).value, e.1) == []);
    Search.FlatMap(entries, check)
  }

  /** The check of one resource_name_generation item: messages of the IAM
      package are skipped, a message that no file holds under that local
      name is reported, and otherwise its field_entity_map is checked. */
  function GenerationDiagnostics(files: seq<File>, config: ConfigProto, item: ResourceNameGeneration): (ds: seq<Diagnostic>)
    ensures IamPackagePrefix <= item.messageName ==> ds == []
    ensures !(IamPackagePrefix <= item.messageName) && ResolveMsgByLocalName(files, item.messageName).None? ==>
              ds == [GenerationMessageDne(item.messageName)]
    ensures !(IamPackagePrefix <= item.messageName) && ResolveMsgByLocalName(files, item.messageName).Some? ==>
              ds == EntryDiagnostics(config, ResolveMsgByLocalName(files, item.messageName).value, item.fieldEntityMap)
  {
    if IamPackagePrefix <= item.messageName then []
    else match ResolveMsgByLocalName(files, item.messageName)
      case None => [GenerationMessageDne(item.messageName)]
      case Some(loc) => EntryDiagnostics(config, loc, item.fieldEntityMap)
  }

  /** compareResourceRefs over the items, in order. */
  function CompareResourceRefs(files: seq<File>, config: ConfigProto, items: seq<ResourceNameGeneration>): (ds: seq<Diagnostic>)
    ensures forall g, d :: g in items && d in GenerationDiagnostics(files, config, g) ==> d in ds
    ensures forall d :: d in ds ==> exists g :: g in items && d in GenerationDiagnostics(files, config, g)
    ensures ds == [] <==> forall g :: g in items ==> GenerationDiagnostics(files, config, g) == []
  {
    var check := (g: ResourceNameGeneration) => GenerationDiagnostics(files, config, g);
    assert forall g :: g in items ==> check(g) == GenerationDiagnostics(files, config, g);
    Search.FlatMap(items, check)
  }

  // ---------------------------------------------------------------------
  // Services

  /** A configured method exists on the service and mirrors its config. */
  predicate MethodMatches(serv: Service, mc: MethodConfig)
  {
    FindMethodByName(serv, mc.name).Some? && CompareMethod(FindMethodByName(serv, mc.name).value, mc) == []
  }

  /** One method config against the resolved service. */
  function MethodConfigDiagnostics(serv: Service, interName: string, mc: MethodConfig): (ds: seq<Diagnostic>)
    ensures ds == [] <==> MethodMatches(serv, mc)
    ensures FindMethodByName(serv, mc.name).None? ==> ds == [MethodDne(interName + "." + mc.name)]
    ensures FindMethodByName(serv, mc.name).Some? ==> ds == CompareMethod(FindMethodByName(serv, mc.name).value, mc)
  {
    match FindMethodByName(serv, mc.name)
    case None => [MethodDne(interName + "." + mc.name)]
    case Some(m) => CompareMethod(m, mc)
  }

  /** The method configs of an interface against the resolved service, in
      order: a missing method is reported with the interface-qualified name. */
  function MethodsDiagnostics(serv: Service, interName: string, mcs: seq<MethodConfig>): (ds: seq<Diagnostic>)
    ensures ds == [] <==> forall mc :: mc in mcs ==> MethodMatches(serv, mc)
    ensures forall mc :: mc in mcs && FindMethodByName(serv, mc.name).None? ==>
              MethodDne(interName + "." + mc.name) in ds
    ensures forall mc, d :: mc in mcs && d in MethodConfigDiagnostics(serv, interName, mc) ==> d in ds
    ensures forall d :: d in ds ==> exists mc :: mc in mcs && d in MethodConfigDiagnostics(serv, interName, mc)
  {
    var check := (mc: MethodConfig) => MethodConfigDiagnostics(serv, interName, mc);
    assert forall mc :: check(mc) == MethodConfigDiagnostics(serv, interName, mc);
    assert forall mc :: mc in mcs && FindMethodByName(serv, mc.name).None? ==>
      MethodDne(interName + "." + mc.name) in check(mc);
    Search.FlatMap(mcs, check)
  }

  /** One interface of compareServices: an interface with no service is
      reported alone; otherwise its collections, then its methods. */
  function InterfaceDiagnostics(files: seq<File>, inter: InterfaceConfig): (ds: seq<Diagnostic>)
    ensures ResolveServiceByName(files, inter.name).None? ==> ds == [InterfaceDne(inter.name)]
    ensures ResolveServiceByName(files, inter.name).Some? ==>
              var serv := ResolveServiceByName(files, inter.name).value;
              ds == CompareResources(files, inter.collections) + MethodsDiagnostics(serv, inter.name, inter.methods)
  {
    match ResolveServiceByName(files, inter.name)
    case None => [InterfaceDne(inter.name)]
    case Some(serv) => CompareResources(files, inter.collections) + MethodsDiagnostics(serv, inter.name, inter.methods)
  }

  /** compareServices over the config's interfaces, in order. */
  function CompareServices(files: seq<File>, inters: seq<InterfaceConfig>): (ds: seq<Diagnostic>)
    ensures forall i :: i in inters && ResolveServiceByName(files, i.name).None? ==> InterfaceDne(i.name) in ds
    ensures forall i, d :: i in inters && d in InterfaceDiagnostics(files, i) ==> d in ds
    ensures forall d :: d in ds ==> exists i :: i in inters && d in InterfaceDiagnostics(files, i)
    ensures ds == [] <==> forall i :: i in inters ==> InterfaceDiagnostics(files, i) == []
  {
    var check := (i: InterfaceConfig) => InterfaceDiagnostics(files, i);
    assert forall i :: i in inters ==> check(i) == InterfaceDiagnostics(files, i);
    assert forall i: InterfaceConfig :: ResolveServiceByName(files, i.name).None? ==> InterfaceDne(i.name) in check(i);
    Search.FlatMap(inters, check)
  }

  /** compare: the interfaces, then the resource references. */
  function Compare(files: seq<File>, config: ConfigProto): (ds: seq<Diagnostic>)
    ensures CompareServices(files, config.interfaces) <= ds
    ensures var refs := CompareResourceRefs(files, config, config.resourceNameGeneration);
            |refs| <= |ds| && ds[|ds| - |refs|..] == refs
    ensures |ds| == |CompareServices(files, config.interfaces)| + |CompareResourceRefs(files, config, config.resourceNameGeneration)|
    ensures forall i :: i in config.interfaces && ResolveServiceByName(files, i.name).None? ==> InterfaceDne(i.name) in ds
  {
    CompareServices(files, config.interfaces) + CompareResourceRefs(files, config, config.resourceNameGeneration)
  }
}

=== FILE: descriptors.dfy ===
/** The protobuf descriptors the validator reads, with the GAPIC
    annotations it looks at surfaced as typed optional fields instead of
    reflective extension lookups. Messages refer to other messages by
    fully-qualified name, so cyclic message graphs stay well-founded. */
module Descriptors {
  import opened Wrappers
  import opened Search

  /** google.api.field_behavior values. */
  datatype FieldBehavior =
    | BehaviorUnspecified | Optional | Required | OutputOnly | InputOnly | Immutable

  /** google.api.resource and the entries of google.api.resource_definition. */
  datatype ResourceDescriptor = ResourceDescriptor(typ: string, patterns: seq<string>, nameField: string)

  /** google.api.resource_reference; an unset string is "". */
  datatype ResourceReference = ResourceReference(typ: string, childType: string)

  /** google.longrunning.operation_info; an unset string is "". */
  datatype OperationInfo = OperationInfo(responseType: string, metadataType: string)

  /** A field: `messageType` names the field's message type (None for a
      scalar); `behavior` is None when field_behavior is absent. */
  datatype Field = Field(
    name: string,
    repeated: bool,
    messageType: Option<string>,
    behavior: Option<seq<FieldBehavior>>,
    resourceReference: Option<ResourceReference>)

  datatype Message = Message(fqn: string, fields: seq<Field>, resource: Option<ResourceDescriptor>)

  /** Method options; `signatures` is None when google.api.method_signature is absent. */
  datatype MethodOptions = MethodOptions(operationInfo: Option<OperationInfo>, signatures: Option<seq<string>>)

  /** A method; `outputType` is the fully-qualified name of its output message. */
  datatype Method = Method(fqn: string, name: string, input: Message, outputType: string, options: Option<MethodOptions>)

  datatype ServiceOptions = ServiceOptions(defaultHost: Option<string>)

  datatype Service = Service(fqn: string, methods: seq<Method>, options: Option<ServiceOptions>)

  /** A file: `messages` are its top-level messages, `nestedMessages` the
      ones declared inside them; both are visible to lookups by name. */
  datatype File = File(
    name: string,
    package: string,
    resourceDefinitions: seq<ResourceDescriptor>,
    services: seq<Service>,
    messages: seq<Message>,
    nestedMessages: seq<Message>)

  /** Every message a file declares, at any depth. */
  function AllMessages(file: File): seq<Message>
  {
    file.messages + file.nestedMessages
  }

  /** FileDescriptor.FindMessage: the message of this file with that fully-qualified name. */
  function FindMessage(file: File, fqn: string): (r: Option<Message>)
    ensures r.Some? ==> r.value.fqn == fqn && r.value in AllMessages(file)
    ensures r.None? <==> forall m :: m in AllMessages(file) ==> m.fqn != fqn
  {
    Find(AllMessages(file), (m: Message) => m.fqn == fqn)
  }

  /** MessageDescriptor.FindFieldByName. */
  function FindField(msg: Message, name: string): (r: Option<Field>)
    ensures r.Some? ==> r.value.name == name && r.value in msg.fields
    ensures r.None? <==> forall f :: f in msg.fields ==> f.name != name
  {
    Find(msg.fields, (f: Field) => f.name == name)
  }

  /** FileDescriptor.FindService. */
  function FindService(file: File, fqn: string): (r: Option<Service>)
    ensures r.Some? ==> r.value.fqn == fqn && r.value in file.services
    ensures r.None? <==> forall s :: s in file.services ==> s.fqn != fqn
  {
    Find(file.services, (s: Service) => s.fqn == fqn)
  }

  /** ServiceDescriptor.FindMethodByName. */
  function FindMethodByName(serv: Service, name: string): (r: Option<Method>)
    ensures r.Some? ==> r.value.name == name && r.value in serv.methods
    ensures r.None? <==> forall m :: m in serv.methods ==> m.name != name
  {
    Find(serv.methods, (m: Method) => m.name == name)
  }

  /** The message a fully-qualified type name denotes in the file set (the
      link behind FieldDescriptor.GetMessageType): the first file that
      declares it. */
  function Lookup(files: seq<File>, fqn: string): (r: Option<Message>)
    ensures r.Some? ==> r.value.fqn == fqn
    ensures r.Some? ==> exists i :: 0 <= i < |files| && FindMessage(files[i], fqn) == r
    ensures r.None? <==> forall k :: 0 <= k < |files| ==> FindMessage(files[k], fqn).None?
  {
    FirstSome(files, (f: File) => FindMessage(f, fqn))
  }

  /** FieldDescriptor.GetFullyQualifiedName. */
  function FieldFqn(msg: Message, f: Field): string
  {
    msg.fqn + "." + f.name
  }

  /** Protobuf identifiers never contain '/', so no message of a parsed
      file has a fully-qualified name containing one. */
  predicate NamesWithoutSlash(file: File)
  {
    forall m :: m in AllMessages(file) ==> '/' !in m.fqn
  }
}

/** The legacy GAPIC configuration document, already decoded from YAML.
    A Go map (field_entity_map) becomes a sequence of pairs. */
module Config {
  import opened Wrappers

  datatype FlatteningGroup = FlatteningGroup(parameters: seq<string>)
  datatype FlatteningConfig = FlatteningConfig(groups: seq<FlatteningGroup>)
  datatype LongRunningConfig = LongRunningConfig(returnType: string, metadataType: string)
  datatype MethodConfig = MethodConfig(
    name: string,
    flattening: Option<FlatteningConfig>,
    longRunning: Option<LongRunningConfig>,
    requiredFields: seq<string>)
  datatype CollectionConfig = CollectionConfig(entityName: string, namePattern: string)
  datatype InterfaceConfig = InterfaceConfig(name: string, collections: seq<CollectionConfig>, methods: seq<MethodConfig>)
  datatype ResourceNameGeneration = ResourceNameGeneration(messageName: string, fieldEntityMap: seq<(string, string)>)
  datatype ConfigProto = ConfigProto(
    interfaces: seq<InterfaceConfig>,
    collections: seq<CollectionConfig>,
    resourceNameGeneration: seq<ResourceNameGeneration>)
}

=== FILE: diagnostics.dfy ===
/** Diagnostics: one constructor per message template of validator.go and
    comparator.go, their rendered text, and the append-only accumulator
    that joins them into the plugin response's error string. */
module Diagnostics {
  import opened GoStrings

  datatype Diagnostic =
    // default_host (validator.go:33-34)
    | MissingDefaultHost(service: string)
    | EmptyDefaultHost(service: string)
    // operation_info (validator.go:37-41)
    | MissingLroInfo(rpc: string)
    | MissingLroResponseType(rpc: string)
    | MissingLroMetadataType(rpc: string)
    | UnresolvableLroResponseType(value: string, rpc: string)
    | UnresolvableLroMetadataType(value: string, rpc: string)
    // method_signature (validator.go:44-46)
    | FieldDne(field: string, rpc: string, entry: string, input: string)
    | FieldComponentRepeated(rpc: string, field: string)
    // resources (validator.go:49-57)
    | ResRefNotValidResource(field: string, value: string)
    | ResRefInvalidTypeFormat(field: string)
    | ResMissingType(owner: string)
    | ResInvalidTypeFormat(owner: string)
    | ResTypeKindInvalid(kind: string)
    | ResTypeKindTooLong(owner: string, limit: nat)
    | ResMissingPattern(owner: string)
    | ResMissingNameField(owner: string)
    // legacy-config comparison (comparator.go)
    | InterfaceDne(name: string)
    | MethodDne(name: string)
    | MissingSignatures(rpc: string)
    | MissingFlatteningSignature(rpc: string, joined: string)
    | MissingOperationInfo(rpc: string)
    | ResponseTypeMismatch(rpc: string, proto: string, gapic: string)
    | MetadataTypeMismatch(rpc: string, proto: string, gapic: string)
    | RequiredFieldDne(field: string, rpc: string, input: string)
    | MissingFieldBehavior(field: string)
    | FieldNotRequired(field: string)
    | DefinitionLacksPattern(typ: string, owner: string, pattern: string)
    | NoResourceDefinition(entity: string, pattern: string)
    | GenerationMessageDne(message: string)
    | GenerationFieldDne(field: string, message: string)
    | MissingResourceReference(field: string, entity: string)
    | ChildTypeUndefined(child: string, field: string)
    | EntityNotInCollections(entity: string)
    | NotProperChild(field: string, child: string, entity: string)
    | KindMismatch(field: string, typ: string, entity: string)

  /** A %q argument, quoted without Go's escaping. */
  function Q(s: string): string
  {
    "\"" + s + "\""
  }

  /** The text the template produces for a diagnostic. */
  function Text(d: Diagnostic): string
  {
    match d
    case MissingDefaultHost(s) => "service " + Q(s) + " is missing option google.api.default_host"
    case EmptyDefaultHost(s) => "service " + Q(s) + " google.api.default_host is empty"
    case MissingLroInfo(r) =>
      "rpc " + Q(r) + " returns google.longrunning.Operation but is missing option google.longrunning.operation_info"
    case MissingLroResponseType(r) =>
      "rpc " + Q(r) + " has google.longrunning.operation_info but is missing option google.longrunning.operation_info.response_type"
    case MissingLroMetadataType(r) =>
      "rpc " + Q(r) + " has google.longrunning.operation_info but is missing option google.longrunning.operation_info.metadata_type"
    case UnresolvableLroResponseType(v, r) =>
      "unable to resolve google.longrunning.operation_info.response_type value " + Q(v) + " in rpc " + Q(r)
    case UnresolvableLroMetadataType(v, r) =>
      "unable to resolve google.longrunning.operation_info.metadata_type value " + Q(v) + " in rpc " + Q(r)
    case FieldDne(f, r, e, i) =>
      "field " + Q(f) + " listed in rpc " + Q(r) + " method signature entry (" + Q(e) + ") does not exist in " + Q(i)
    case FieldComponentRepeated(r, f) =>
      "rpc " + Q(r) + " method signature entry field " + Q(f) + " cannot be a field within a repeated field"
    case ResRefNotValidResource(f, v) =>
      "unable to resolve resource reference for field " + Q(f) + ": value " + Q(v) + " is not a valid resource"
    case ResRefInvalidTypeFormat(f) =>
      "resource_reference.(child_)type for field " + Q(f) + " must be {service_name}/{resource_type_kind}"
    case ResMissingType(o) => "resource for message " + Q(o) + " missing field google.api.resource.type"
    case ResInvalidTypeFormat(o) =>
      "resource.(child_)type for message " + Q(o) + " must be {service_name}/{resource_type_kind}"
    case ResTypeKindInvalid(k) =>
      "resource_type_kind " + Q(k) + " has invalid format, must match regexp [A-Z][a-zA-Z0-9]+"
    case ResTypeKindTooLong(o, n) =>
      "resource_type_kind in message " + Q(o) + " must not be longer than " + NatToString(n) + " characters"
    case ResMissingPattern(o) => "field " + Q(o) + " resource missing pattern definition"
    case ResMissingNameField(o) => "resource message " + Q(o) + " missing a name field"
    case InterfaceDne(n) => "Interface " + Q(n) + " does not exist"
    case MethodDne(n) => "Method " + Q(n) + " does not exist"
    case MissingSignatures(r) => "Method " + Q(r) + " missing method_signature(s) for flattening(s)"
    case MissingFlatteningSignature(r, j) => "Method " + Q(r) + " missing method_signature for flattening " + Q(j)
    case MissingOperationInfo(r) => "Method " + Q(r) + " missing longrunning.operation_info"
    case ResponseTypeMismatch(r, p, g) =>
      "Method " + Q(r) + " operation_info.response_type " + Q(p) + " does not match " + Q(g)
    case MetadataTypeMismatch(r, p, g) =>
      "Method " + Q(r) + " operation_info.metadata_type " + Q(p) + " does not match " + Q(g)
    case RequiredFieldDne(f, r, i) =>
      "Field " + Q(f) + " in method " + Q(r) + " required_fields does not exist in " + Q(i)
    case MissingFieldBehavior(f) =>
      "Field " + Q(f) + " is missing field_behavior = REQUIRED per required_fields config"
    case FieldNotRequired(f) => "Field " + Q(f) + " is not annotated as REQUIRED per required_fields config"
    case DefinitionLacksPattern(t, o, p) =>
      "resource definition for " + Q(t) + " in " + Q(o) + " does not have pattern " + Q(p)
    case NoResourceDefinition(e, p) => "No corresponding resource definition for " + Q(e) + ": " + Q(p)
    case GenerationMessageDne(m) => "Message " + Q(m) + " in resource_name_generation item does not exist"
    case GenerationFieldDne(f, m) =>
      "Field " + Q(f) + " does not exist on message " + Q(m) + " per resource_name_generation item"
    case MissingResourceReference(f, e) => "Field " + Q(f) + " missing resource_reference to " + Q(e)
    case ChildTypeUndefined(c, f) => "child_type " + Q(c) + " on " + Q(f) + " is not a defined resource"
    case EntityNotInCollections(e) => "entity_name " + Q(e) + " is not a defined in any available collection"
    case NotProperChild(f, c, e) =>
      "Field " + Q(f) + " child_type " + Q(c) + " isn't a proper child of " + Q(e) + " in GAPIC config"
    case KindMismatch(f, t, e) =>
      "Field " + Q(f) + " resource_type_kind " + Q(t) + " doesn't match " + Q(e) + " in config"
  }

  /** addError: the response's error text grows by a newline and the new
      message; nothing already there changes. */
  function AddError(acc: string, d: Diagnostic): (r: string)
    ensures acc < r
    ensures r[|acc|] == '\n' && r[|acc| + 1..] == Text(d)
  {
    acc + "\n" + Text(d)
  }

  /** The error text after calling addError with each of `ds` in order,
      starting from `acc`. */
  function AddAll(acc: string, ds: seq<Diagnostic>): string
  {
    AddAllBy(acc, ds, Text)
  }

  /** AddAll with the message function as a parameter: each step is
      AddError's "acc + newline + message". */
  function AddAllBy(acc: string, ds: seq<Diagnostic>, text: Diagnostic -> string): string
    decreases |ds|
  {
    if |ds| == 0 then acc else AddAllBy(acc + "\n" + text(ds[0]), ds[1..], text)
  }

  /** The error text of a whole run: "\n" + message, once per diagnostic, in order. */
  function Render(ds: seq<Diagnostic>): string
  {
    Joined(ds, Text)
  }

  /** "\n" + text(d) for each of `ds`, in order; the message function is a
      parameter so that the lemmas below never look inside the templates. */
  function Joined(ds: seq<Diagnostic>, text: Diagnostic -> string): string
  {
    if |ds| == 0 then "" else "\n" + text(ds[0]) + Joined(ds[1..], text)
  }

  /** Adding diagnostics one call at a time appends their rendering to the
      text already accumulated. */
  lemma AddAllAppends(acc: string, ds: seq<Diagnostic>)
    ensures AddAll(acc, ds) == acc + Render(ds)
  {
    AddAllJoined(acc, ds, Text);
  }

  lemma {:induction false} AddAllJoined(acc: string, ds: seq<Diagnostic>, text: Diagnostic -> string)
    ensures AddAllBy(acc, ds, text) == acc + Joined(ds, text)
    decreases |ds|
  {
    if |ds| > 0 {
      var t := text(ds[0]);
      AddAllJoined(acc + "\n" + t, ds[1..], text);
      assert (acc + "\n" + t) + Joined(ds[1..], text) == acc + ("\n" + t + Joined(ds[1..], text));
    }
  }

  /** Rendering distributes over concatenation: later diagnostics never
      change the text of earlier ones. */
  lemma RenderAppend(ds1: seq<Diagnostic>, ds2: seq<Diagnostic>)
    ensures Render(ds1 + ds2) == Render(ds1) + Render(ds2)
  {
    JoinedAppend(ds1, ds2, Text);
  }

  lemma {:induction false} JoinedAppend(ds1: seq<Diagnostic>, ds2: seq<Diagnostic>, text: Diagnostic -> string)
    ensures Joined(ds1 + ds2, text) == Joined(ds1, text) + Joined(ds2, text)
  {
    if |ds1| == 0 {
      assert ds1 + ds2 == ds2;
    } else {
      assert (ds1 + ds2)[1..] == ds1[1..] + ds2;
      JoinedAppend(ds1[1..], ds2, text);
    }
  }

  /** The error text is empty exactly when no diagnostic was added: its
      presence is the plugin's only failure signal. */
  lemma RenderEmpty(ds: seq<Diagnostic>)
    ensures Render(ds) == "" <==> |ds| == 0
  {
    if |ds| > 0 {
      assert Joined(ds, Text)[0] == '\n';
    }
  }

  /** The k-th diagnostic's line sits between the text of the ones before
      it and the text of the ones after it. */
  lemma RenderSpelledOut(ds: seq<Diagnostic>, k: nat)
    requires k < |ds|
    ensures Render(ds) == Render(ds[..k]) + ("\n" + Text(ds[k])) + Render(ds[k + 1..])
  {
    JoinedSpelledOut(ds, k, Text);
  }

  lemma JoinedSpelledOut(ds: seq<Diagnostic>, k: nat, text: Diagnostic -> string)
    requires k < |ds|
    ensures Joined(ds, text) == Joined(ds[..k], text) + ("\n" + text(ds[k])) + Joined(ds[k + 1..], text)
  {
    JoinedAppend(ds[..k], ds[k..], text);
    assert ds[..k] + ds[k..] == ds;
    assert ds[k..][1..] == ds[k + 1..];
  }
}

=== FILE: fixtures.dfy ===
/** The expectations of validator_test.go, stated about the model: the
    descriptors the tests build, and the diagnostics each check yields
    on them. */
module Fixtures {
  import opened Wrappers
  import opened GoStrings
  import opened Descriptors
  import opened Diagnostics
  import opened Validator

  // ---------------------------------------------------------------------
  // Services (TestValidateService)

  const MissingHost := Service("missing", [], Some(ServiceOptions(None)))
  const EmptyHost := Service("empty", [], Some(ServiceOptions(Some(""))))
  const ValidHost := Service("valid", [], Some(ServiceOptions(Some("foo.bar.com"))))
  const NoOptions := Service("none", [], None)

  const NoPackage := File("foo", "", [], [], [], [])

  /** The four default_host cases: absent options or extension, an empty
      value, and a set value. */
  lemma DefaultHostCases()
    ensures ValidateService([], NoPackage, MissingHost) == [MissingDefaultHost("missing")]
    ensures ValidateService([], NoPackage, EmptyHost) == [EmptyDefaultHost("empty")]
    ensures ValidateService([], NoPackage, ValidHost) == []
    ensures ValidateService([], NoPackage, NoOptions) == [MissingDefaultHost("none")]
  {
  }

  // ---------------------------------------------------------------------
  // operation_info (TestValidateMethod_LRO)

  const OperationMessage := Message(LongRunningOperation, [], None)
  const FooFile := File("foo", "foo", [], [], [Message("foo.ValidMessage", [], None)], [])
  const BarFile := File("bar", "bar", [], [], [Message("bar.ImportedMessage", [], None)], [])
  const LroFiles := [FooFile, BarFile]

  /** A long-running method of service foo.service, by its full and its short name. */
  function LroMethod(fqn: string, name: string, options: Option<MethodOptions>): Method
  {
    Method(fqn, name, OperationMessage, LongRunningOperation, options)
  }

  function WithInfo(response: string, metadata: string): Option<MethodOptions>
  {
    Some(MethodOptions(Some(OperationInfo(response, metadata)), None))
  }

  /** A method without method_signature is checked for operation_info only. */
  lemma OnlyLongRunningChecks(files: seq<File>, file: File, m: Method)
    requires Signatures(m) == []
    ensures ValidateMethod(files, file, m) == LroDiagnostics(files, file, m)
  {
    assert SignatureDiagnostics(files, m, []) == [];
  }

  /** No options and no operation_info give one missing-info diagnostic. */
  lemma MissingInfoCases()
    ensures ValidateMethod(LroFiles, FooFile, LroMethod("foo.service.none", "none", None)) == [MissingLroInfo("foo.service.none")]
    ensures ValidateMethod(LroFiles, FooFile, LroMethod("foo.service.missing", "missing", Some(MethodOptions(None, None))))
            == [MissingLroInfo("foo.service.missing")]
  {
    MissingInfoCase("foo.service.none", "none", None);
    MissingInfoCase("foo.service.missing", "missing", Some(MethodOptions(None, None)));
  }

  /** A long-running method whose options carry no operation_info. */
  lemma MissingInfoCase(fqn: string, name: string, options: Option<MethodOptions>)
    requires options.None? || (options.value.operationInfo.None? && options.value.signatures.None?)
    ensures ValidateMethod(LroFiles, FooFile, LroMethod(fqn, name, options)) == [MissingLroInfo(fqn)]
  {
    var m := LroMethod(fqn, name, options);
    assert LroDiagnostics(LroFiles, FooFile, m) == [MissingLroInfo(fqn)] by {
      assert OperationInfoOf(m).None?;
    }
    assert Signatures(m) == [];
    OnlyLongRunningChecks(LroFiles, FooFile, m);
  }

  /** Empty response and metadata types give one diagnostic each. */
  lemma MissingTypesCase()
    ensures ValidateMethod(LroFiles, FooFile, LroMethod("foo.service.missingTypes", "missingTypes", WithInfo("", "")))
            == [MissingLroResponseType("foo.service.missingTypes"), MissingLroMetadataType("foo.service.missingTypes")]
  {
    var m := LroMethod("foo.service.missingTypes", "missingTypes", WithInfo("", ""));
    assert LroDiagnostics(LroFiles, FooFile, m)
           == [MissingLroResponseType("foo.service.missingTypes"), MissingLroMetadataType("foo.service.missingTypes")] by {
      assert OperationInfoOf(m) == Some(OperationInfo("", ""));
    }
    OnlyLongRunningChecks(LroFiles, FooFile, m);
  }

  /** Names that no file declares give one diagnostic each. */
  lemma UnresolvableTypesCase()
    ensures ValidateMethod(LroFiles, FooFile, LroMethod("foo.service.unresolvable", "unresolvable", WithInfo("FooMessage", "bar.BazMessage")))
            == [UnresolvableLroResponseType("FooMessage", "foo.service.unresolvable"),
                UnresolvableLroMetadataType("bar.BazMessage", "foo.service.unresolvable")]
  {
    var m := LroMethod("foo.service.unresolvable", "unresolvable", WithInfo("FooMessage", "bar.BazMessage"));
    assert LroDiagnostics(LroFiles, FooFile, m)
           == [UnresolvableLroResponseType("FooMessage", "foo.service.unresolvable"),
               UnresolvableLroMetadataType("bar.BazMessage", "foo.service.unresolvable")] by {
      assert OperationInfoOf(m) == Some(OperationInfo("FooMessage", "bar.BazMessage"));
      UnresolvableNames();
    }
    OnlyLongRunningChecks(LroFiles, FooFile, m);
  }

  /** A bare name of the method's own package and a qualified name
      declared in another file both resolve. */
  lemma ResolvableTypesCase()
    ensures ValidateMethod(LroFiles, FooFile, LroMethod("foo.service.valid", "valid", WithInfo("ValidMessage", "bar.ImportedMessage"))) == []
  {
    var m := LroMethod("foo.service.valid", "valid", WithInfo("ValidMessage", "bar.ImportedMessage"));
    assert LroDiagnostics(LroFiles, FooFile, m) == [] by {
      assert OperationInfoOf(m) == Some(OperationInfo("ValidMessage", "bar.ImportedMessage"));
      ResolvableNames();
    }
    OnlyLongRunningChecks(LroFiles, FooFile, m);
  }

  /** Neither a bare nor a qualified name that no file declares resolves. */
  lemma UnresolvableNames()
    ensures Resolver.ResolveMsgReference(LroFiles, "FooMessage", FooFile).None?
    ensures Resolver.ResolveMsgReference(LroFiles, "bar.BazMessage", FooFile).None?
  {
    assert Lookup(LroFiles, "FooMessage").None? by {
      assert FindMessage(FooFile, "FooMessage").None?;
      assert FindMessage(BarFile, "FooMessage").None?;
    }
    assert Resolver.Qualify(FooFile, "FooMessage") == "foo.FooMessage";
    assert FindMessage(FooFile, "foo.FooMessage").None?;
    assert Lookup(LroFiles, "bar.BazMessage").None? by {
      assert FindMessage(FooFile, "bar.BazMessage").None?;
      assert FindMessage(BarFile, "bar.BazMessage").None?;
    }
  }

  /** A bare name resolves in the method's own package; a qualified name
      resolves in another file of the set. */
  lemma ResolvableNames()
    ensures Resolver.ResolveMsgReference(LroFiles, "ValidMessage", FooFile).Some?
    ensures Resolver.ResolveMsgReference(LroFiles, "bar.ImportedMessage", FooFile).Some?
  {
    OwnPackageResolves();
    OtherFileResolves();
  }

  lemma OwnPackageResolves()
    ensures Resolver.ResolveMsgReference(LroFiles, "ValidMessage", FooFile).Some?
  {
    assert Resolver.Qualify(FooFile, "ValidMessage") == "foo.ValidMessage";
    assert FindMessage(FooFile, "foo.ValidMessage").Some? by {
      assert AllMessages(FooFile)[0].fqn == "foo.ValidMessage";
    }
  }

  lemma OtherFileResolves()
    ensures Resolver.ResolveMsgReference(LroFiles, "bar.ImportedMessage", FooFile).Some?
  {
    assert Lookup(LroFiles, "bar.ImportedMessage").Some? by {
      assert LroFiles[1] == BarFile;
      assert FindMessage(BarFile, "bar.ImportedMessage").Some? by {
        assert AllMessages(BarFile)[0].fqn == "bar.ImportedMessage";
      }
    }
  }

  // ---------------------------------------------------------------------
  // The annotated.proto test messages

  function Plain(name: string): Field
  {
    Field(name, false, None, None, None)
  }

  function Referencing(name: string, typ: string, childType: string): Field
  {
    Field(name, false, None, None, Some(ResourceReference(typ, childType)))
  }

  const BazMsg := Message("annotated.Baz",
    [Referencing("c", "", ""), Field("biz", true, Some("annotated.Biz"), None, None)],
    None)
  const WobbleMsg := Message("annotated.Wobble", [Plain("name")],
    Some(ResourceDescriptor("", ["missing/{type}"], "")))

  const AnnotatedFile := File("annotated.proto", "annotated", [], [], [BazMsg, WobbleMsg], [])

  /** A resource without a type gets exactly the missing-type report. */
  lemma MissingTypeCase()
    ensures ValidateMessage(AnnotatedFile, WobbleMsg) == [ResMissingType("annotated.Wobble")]
  {
    assert FindField(WobbleMsg, "name").Some? by { assert WobbleMsg.fields[0].name == "name"; }
    assert ReferenceDiagnostics(AnnotatedFile, WobbleMsg, WobbleMsg.fields) == [];
  }

  /** A reference with an empty type is a format error. */
  lemma EmptyReferenceCase()
    ensures ValidateMessage(AnnotatedFile, BazMsg) == [ResRefInvalidTypeFormat("annotated.Baz.c")]
  {
    assert FieldFqn(BazMsg, BazMsg.fields[0]) == "annotated.Baz.c";
    assert ReferenceDiagnostics(AnnotatedFile, BazMsg, BazMsg.fields[1..]) == [];
    ReferenceDiagnosticsInOrder(AnnotatedFile, BazMsg, BazMsg.fields);
  }
}

=== FILE: gostrings.dfy ===
/** The parts of Go's `strings` and `unicode` packages that the validator
    relies on, restricted to one-character separators and to ASCII case
    mapping. */
module GoStrings {

  /** Number of occurrences of `c` in `s`. */
  function Count(s: string, c: char): nat
  {
    if |s| == 0 then 0 else (if s[0] == c then 1 else 0) + Count(s[1..], c)
  }

  /** strings.Split(s, sep): the pieces between separators; "" splits to [""]. */
  function Split(s: string, sep: char): (parts: seq<string>)
    ensures |parts| == Count(s, sep) + 1
    ensures forall k :: 0 <= k < |parts| ==> sep !in parts[k]
  {
    if |s| == 0 then [""]
    else
      var rest := Split(s[1..], sep);
      if s[0] == sep then [""] + rest
      else [[s[0]] + rest[0]] + rest[1..]
  }

  /** strings.Join(parts, sep) for a one-character separator. */
  function Join(parts: seq<string>, sep: char): string
  {
    if |parts| == 0 then ""
    else if |parts| == 1 then parts[0]
    else parts[0] + [sep] + Join(parts[1..], sep)
  }

  /** Joining the pieces of a split gives back the original text. */
  lemma {:induction false} JoinSplit(s: string, sep: char)
    ensures Join(Split(s, sep), sep) == s
  {
    if |s| > 0 {
      var rest := Split(s[1..], sep);
      JoinSplit(s[1..], sep);
      if s[0] == sep {
        assert Split(s, sep) == [""] + rest;
        assert ([""] + rest)[1..] == rest;
        assert s == [sep] + s[1..];
      } else {
        var parts := [[s[0]] + rest[0]] + rest[1..];
        assert Split(s, sep) == parts;
        if |rest| == 1 {
          assert Join(parts, sep) == [s[0]] + rest[0];
        } else {
          assert parts[1..] == rest[1..];
          assert Join(rest, sep) == rest[0] + [sep] + Join(rest[1..], sep);
        }
        assert s == [s[0]] + s[1..];
      }
    }
  }

  /** Splitting text free of the separator in front of more text extends
      the first piece and keeps the others. */
  lemma {:induction false} SplitPrefix(x: string, t: string, sep: char)
    requires sep !in x
    ensures Split(x + t, sep) == [x + Split(t, sep)[0]] + Split(t, sep)[1..]
  {
    if |x| > 0 {
      SplitPrefix(x[1..], t, sep);
      assert (x + t)[1..] == x[1..] + t;
      assert x[0] != sep;
      assert [x[0]] + (x[1..] + Split(t, sep)[0]) == x + Split(t, sep)[0];
    } else {
      assert x + t == t;
      assert x + Split(t, sep)[0] == Split(t, sep)[0];
      assert [Split(t, sep)[0]] + Split(t, sep)[1..] == Split(t, sep);
    }
  }

  /** Text free of the separator splits into itself alone. */
  lemma SplitNoSeparator(x: string, sep: char)
    requires sep !in x
    ensures Split(x, sep) == [x]
  {
    SplitPrefix(x, "", sep);
    assert x + "" == x;
  }

  /** A leading separator contributes an empty first piece. */
  lemma SplitLeadingSeparator(t: string, sep: char)
    ensures Split([sep] + t, sep) == [""] + Split(t, sep)
  {
    assert ([sep] + t)[1..] == t;
  }

  /** Splitting a join of separator-free pieces gives back the pieces. */
  lemma {:induction false} SplitJoin(parts: seq<string>, sep: char)
    requires |parts| >= 1
    requires forall k :: 0 <= k < |parts| ==> sep !in parts[k]
    ensures Split(Join(parts, sep), sep) == parts
  {
    if |parts| == 1 {
      SplitPrefix(parts[0], "", sep);
      assert parts[0] + "" == parts[0];
    } else {
      var tail := Join(parts[1..], sep);
      SplitJoin(parts[1..], sep);
      SplitPrefix(parts[0], [sep] + tail, sep);
      assert ([sep] + tail)[1..] == tail;
      assert Split([sep] + tail, sep) == [""] + parts[1..];
      assert parts[0] + [sep] + tail == parts[0] + ([sep] + tail);
      assert parts[0] + "" == parts[0];
    }
  }

  /** strings.Index(s, string(c)) when `c` occurs: the first occurrence. */
  function IndexOf(s: string, c: char): (i: nat)
    requires c in s
    ensures i < |s| && s[i] == c && c !in s[..i]
  {
    if s[0] == c then 0 else IndexOf(s[1..], c) + 1
  }

  /** strings.LastIndex(s, string(c)) when `c` occurs: the last occurrence. */
  function LastIndexOf(s: string, c: char): (i: nat)
    requires c in s
    ensures i < |s| && s[i] == c && c !in s[i + 1..]
  {
    if s[|s| - 1] == c then |s| - 1 else LastIndexOf(s[..|s| - 1], c)
  }

  /** `s[strings.Index(s, sep)+1:]`: everything after the first `sep`, or
      all of `s` when Index returns -1. */
  function AfterFirst(s: string, sep: char): (r: string)
    ensures sep !in s ==> r == s
    ensures sep in s ==> |r| < |s| && s == s[..|s| - |r| - 1] + [sep] + r && sep !in s[..|s| - |r| - 1]
  {
    if sep in s then
      var i := IndexOf(s, sep);
      assert s == s[..i] + [sep] + s[i + 1..];
      s[i + 1..]
    else s
  }

  /** The text after the last `sep`, or all of `s` when it has none (the
      trimming to a local message name in compareMethod). */
  function AfterLast(s: string, sep: char): (r: string)
    ensures sep !in r
    ensures |r| <= |s| && r == s[|s| - |r|..]
    ensures sep !in s ==> r == s
    ensures sep in s ==> |r| < |s| && s[|s| - |r| - 1] == sep
  {
    if sep in s then s[LastIndexOf(s, sep) + 1..] else s
  }

  /** The last `c` of a text is the one after which no `c` follows. */
  lemma {:induction false} LastIndexOfAppend(a: string, c: char, b: string)
    requires c !in b
    ensures c in a + [c] + b && LastIndexOf(a + [c] + b, c) == |a|
  {
    var s := a + [c] + b;
    assert s[|a|] == c;
    if |b| > 0 {
      assert s[..|s| - 1] == a + [c] + b[..|b| - 1];
      assert b[|b| - 1] in b;
      LastIndexOfAppend(a, c, b[..|b| - 1]);
    }
  }

  /** A text with exactly one `sep` splits into the text before it and the
      text after it. */
  lemma {:induction false} SplitAtOnlySeparator(s: string, sep: char)
    requires Count(s, sep) == 1
    ensures sep in s
    ensures Split(s, sep) == [s[..IndexOf(s, sep)], AfterFirst(s, sep)]
  {
    CountPositive(s, sep);
    var i := IndexOf(s, sep);
    var before, after := s[..i], s[i + 1..];
    assert s == before + ([sep] + after);
    CountAppend(before, [sep] + after, sep);
    CountAbsent(before, sep);
    assert ([sep] + after)[1..] == after;
    CountAbsentIff(after, sep);
    SplitPrefix(before, [sep] + after, sep);
    SplitLeadingSeparator(after, sep);
    SplitNoSeparator(after, sep);
    var sp := Split([sep] + after, sep);
    assert sp == [""] + [after];
    assert before + sp[0] == before;
    assert sp[1..] == [after];
    assert AfterFirst(s, sep) == after;
  }

  /** A text made of two separator-free parts around one separator has
      exactly one separator, and the text after it is the second part. */
  lemma OnlySeparator(a: string, sep: char, b: string)
    requires sep !in a && sep !in b
    ensures Count(a + [sep] + b, sep) == 1
    ensures AfterFirst(a + [sep] + b, sep) == b
  {
    var s := a + [sep] + b;
    CountAppend(a + [sep], b, sep);
    CountAppend(a, [sep], sep);
    CountAbsent(a, sep);
    CountAbsent(b, sep);
    assert s[|a|] == sep;
    var r := AfterFirst(s, sep);
    var i := |s| - |r| - 1;
    assert s[i] == sep by { assert s[..i] + [sep] + r == s; assert (s[..i] + [sep] + r)[i] == sep; }
    assert forall j :: 0 <= j < |a| ==> s[j] == a[j] && s[j] != sep;
    assert forall j :: 0 <= j < i ==> s[..i][j] == s[j] && s[j] != sep;
    assert s[i + 1..] == b;
    assert r == s[i + 1..] by { assert s[..i] + [sep] + r == s; assert (s[..i] + [sep] + r)[i + 1..] == r; }
  }

  lemma {:induction false} CountPositive(s: string, c: char)
    requires Count(s, c) > 0
    ensures c in s
  {
    if s[0] != c {
      CountPositive(s[1..], c);
    }
  }

  lemma {:induction false} CountAbsent(s: string, c: char)
    requires c !in s
    ensures Count(s, c) == 0
  {
    if |s| > 0 {
      CountAbsent(s[1..], c);
    }
  }

  lemma CountAbsentIff(s: string, c: char)
    ensures Count(s, c) == 0 <==> c !in s
  {
    if c in s { CountPositiveOf(s, c); } else { CountAbsent(s, c); }
  }

  lemma {:induction false} CountPositiveOf(s: string, c: char)
    requires c in s
    ensures Count(s, c) > 0
  {
    if s[0] != c {
      CountPositiveOf(s[1..], c);
    }
  }

  lemma {:induction false} CountAppend(a: string, b: string, c: char)
    ensures Count(a + b, c) == Count(a, c) + Count(b, c)
  {
    if |a| == 0 {
      assert a + b == b;
    } else {
      assert (a + b)[1..] == a[1..] + b;
      CountAppend(a[1..], b, c);
    }
  }

  /** `sub` occurs in `s` starting at position `i`. */
  predicate OccursAt(s: string, sub: string, i: int)
  {
    0 <= i && i + |sub| <= |s| && s[i..i + |sub|] == sub
  }

  /** `sub` is a substring of `s`. */
  ghost predicate IsSubstring(sub: string, s: string)
  {
    exists i :: OccursAt(s, sub, i)
  }

  /** strings.Contains(s, sub), as a left-to-right search. */
  function Contains(s: string, sub: string): (r: bool)
    ensures r <==> IsSubstring(sub, s)
  {
    if sub <= s then
      assert OccursAt(s, sub, 0);
      true
    else if |s| == 0 then
      assert forall i :: !OccursAt(s, sub, i);
      false
    else
      var r := Contains(s[1..], sub);
      if r then
        var i :| OccursAt(s[1..], sub, i);
        assert OccursAt(s, sub, i + 1);
        true
      else
        var t := s[1..];
        assert !OccursAt(s, sub, 0);
        assert forall i | 1 <= i && OccursAt(s, sub, i) :: OccursAt(t, sub, i - 1) by {
          forall i | 1 <= i && OccursAt(s, sub, i) ensures OccursAt(t, sub, i - 1) {
            assert t[i - 1..i - 1 + |sub|] == s[i..i + |sub|];
          }
        }
        false
  }

  /** strings.Contains with a one-character substring is membership. */
  lemma ContainsChar(s: string, c: char)
    ensures Contains(s, [c]) <==> c in s
  {
    forall i | OccursAt(s, [c], i) ensures s[i] == c {
      assert s[i..i + 1][0] == s[i];
    }
    if c in s {
      assert OccursAt(s, [c], IndexOf(s, c));
    }
  }

  /** Every piece of a join is a substring of the joined text. */
  lemma {:induction false} JoinedPieceOccurs(parts: seq<string>, sep: char, k: nat)
    requires k < |parts|
    ensures IsSubstring(parts[k], Join(parts, sep))
  {
    var j := Join(parts, sep);
    if |parts| == 1 {
      assert OccursAt(j, parts[k], 0);
    } else if k == 0 {
      assert j[..|parts[0]|] == parts[0];
      assert OccursAt(j, parts[0], 0);
    } else {
      JoinedPieceOccurs(parts[1..], sep, k - 1);
      var rest := Join(parts[1..], sep);
      var i :| OccursAt(rest, parts[1..][k - 1], i);
      var off := |parts[0]| + 1;
      assert j == (parts[0] + [sep]) + rest;
      assert j[off + i..off + i + |parts[k]|] == rest[i..i + |parts[k]|];
      assert OccursAt(j, parts[k], off + i);
    }
  }

  /** Every piece of a split is a substring of the split text. */
  lemma SplitPieceOccurs(s: string, sep: char, k: nat)
    requires k < |Split(s, sep)|
    ensures IsSubstring(Split(s, sep)[k], s)
  {
    JoinSplit(s, sep);
    JoinedPieceOccurs(Split(s, sep), sep, k);
  }

  /** ASCII upper-case letter. */
  predicate IsUpper(c: char) { 'A' <= c <= 'Z' }

  /** ASCII lower-case letter. */
  predicate IsLower(c: char) { 'a' <= c <= 'z' }

  /** ASCII letter or digit. */
  predicate IsAlnum(c: char) { IsUpper(c) || IsLower(c) || '0' <= c <= '9' }

  /** unicode.ToUpper on ASCII; other characters are left unchanged. */
  function ToUpper(c: char): (u: char)
    ensures !IsLower(u)
    ensures IsLower(c) ==> IsUpper(u)
    ensures !IsLower(c) ==> u == c
  {
    if IsLower(c) then (c as int - 32) as char else c
  }

  /** unicode.ToLower on ASCII; other characters are left unchanged. */
  function ToLower(c: char): (l: char)
    ensures !IsUpper(l)
    ensures IsUpper(c) ==> IsLower(l)
    ensures !IsUpper(c) ==> l == c
  {
    if IsUpper(c) then (c as int + 32) as char else c
  }

  /** The decimal text of a natural number (fmt's %d). */
  function NatToString(n: nat): (s: string)
    ensures |s| >= 1
    ensures forall k :: 0 <= k < |s| ==> '0' <= s[k] <= '9'
  {
    var d := [(('0' as int) + n % 10) as char];
    if n < 10 then d else NatToString(n / 10) + d
  }
}

=== FILE: lcsdiff.dfy ===
/** The line diff of the conformance tool (lcsDiff and compare in
    cmd/gapic-error-conformance/main.go): a longest-common-subsequence
    table, a backtrack from its far corner that yields an edit script, and
    the rendering of that script. */
module LcsDiff {
  import opened GoStrings

  /** One line of the diff: common to both sides, only in the first, or only in the second. */
  datatype Edit = Keep(line: string) | FromA(line: string) | FromB(line: string)

  /** The lines of the first side a script walks through. */
  function OldSide(script: seq<Edit>): seq<string>
  {
    if |script| == 0 then []
    else (if script[0].FromB? then [] else [script[0].line]) + OldSide(script[1..])
  }

  /** The lines of the second side a script walks through. */
  function NewSide(script: seq<Edit>): seq<string>
  {
    if |script| == 0 then []
    else (if script[0].FromA? then [] else [script[0].line]) + NewSide(script[1..])
  }

  /** The number of common lines a script keeps. */
  function Matched(script: seq<Edit>): nat
  {
    if |script| == 0 then 0 else (if script[0].Keep? then 1 else 0) + Matched(script[1..])
  }

  function Max(x: nat, y: nat): nat
  {
    if x < y then y else x
  }

  /** The length of a longest common subsequence, by the recurrence on the
      last lines that the table fills. */
  function Lcs(a: seq<string>, b: seq<string>): nat
  {
    if |a| == 0 || |b| == 0 then 0
    else if a[|a| - 1] == b[|b| - 1] then Lcs(a[..|a| - 1], b[..|b| - 1]) + 1
    else Max(Lcs(a[..|a| - 1], b), Lcs(a, b[..|b| - 1]))
  }

  /** The recurrence at table cell (i, j). */
  lemma LcsCell(a: seq<string>, b: seq<string>, i: nat, j: nat)
    requires 0 < i <= |a| && 0 < j <= |b|
    ensures Lcs(a[..i], b[..j]) ==
              if a[i - 1] == b[j - 1] then Lcs(a[..i - 1], b[..j - 1]) + 1
              else Max(Lcs(a[..i - 1], b[..j]), Lcs(a[..i], b[..j - 1]))
  {
    assert a[..i][..i - 1] == a[..i - 1];
    assert b[..j][..j - 1] == b[..j - 1];
  }

  /** Dropping the last line of the second side loses at most one common line. */
  lemma {:induction false} DropLastB(a: seq<string>, b: seq<string>)
    requires |b| > 0
    ensures Lcs(a, b[..|b| - 1]) <= Lcs(a, b) <= Lcs(a, b[..|b| - 1]) + 1
    decreases |a| + |b|, 0
  {
    if |a| > 0 {
      var a', b' := a[..|a| - 1], b[..|b| - 1];
      DropLastA(a, b');
      if a[|a| - 1] != b[|b| - 1] {
        DropLastB(a', b);
      }
    }
  }

  /** Dropping the last line of the first side loses at most one common line. */
  lemma {:induction false} DropLastA(a: seq<string>, b: seq<string>)
    requires |a| > 0
    ensures Lcs(a[..|a| - 1], b) <= Lcs(a, b) <= Lcs(a[..|a| - 1], b) + 1
    decreases |a| + |b|, 1
  {
    if |b| > 0 {
      var a', b' := a[..|a| - 1], b[..|b| - 1];
      DropLastB(a', b);
      if a[|a| - 1] != b[|b| - 1] {
        DropLastA(a, b');
      }
    }
  }

  /** Each side of a concatenation of scripts is the concatenation of the sides. */
  lemma SidesAppend(s: seq<Edit>, t: seq<Edit>)
    ensures OldSide(s + t) == OldSide(s) + OldSide(t)
    ensures NewSide(s + t) == NewSide(s) + NewSide(t)
    ensures Matched(s + t) == Matched(s) + Matched(t)
  {
    OldSideAppend(s, t);
    NewSideAppend(s, t);
    MatchedAppend(s, t);
  }

  lemma {:induction false} OldSideAppend(s: seq<Edit>, t: seq<Edit>)
    ensures OldSide(s + t) == OldSide(s) + OldSide(t)
  {
    if |s| == 0 {
      assert s + t == t;
    } else {
      assert (s + t)[0] == s[0] && (s + t)[1..] == s[1..] + t;
      OldSideAppend(s[1..], t);
    }
  }

  lemma {:induction false} NewSideAppend(s: seq<Edit>, t: seq<Edit>)
    ensures NewSide(s + t) == NewSide(s) + NewSide(t)
  {
    if |s| == 0 {
      assert s + t == t;
    } else {
      assert (s + t)[0] == s[0] && (s + t)[1..] == s[1..] + t;
      NewSideAppend(s[1..], t);
    }
  }

  lemma {:induction false} MatchedAppend(s: seq<Edit>, t: seq<Edit>)
    ensures Matched(s + t) == Matched(s) + Matched(t)
  {
    if |s| == 0 {
      assert s + t == t;
    } else {
      assert (s + t)[0] == s[0] && (s + t)[1..] == s[1..] + t;
      MatchedAppend(s[1..], t);
    }
  }

  /** No edit script between two texts keeps more lines than their longest
      common subsequence: the scripts the backtrack yields are optimal. */
  lemma {:induction false} ScriptBound(script: seq<Edit>)
    ensures Matched(script) <= Lcs(OldSide(script), NewSide(script))
  {
    if |script| > 0 {
      var init, last := script[..|script| - 1], script[|script| - 1];
      assert script == init + [last];
      SidesAppend(init, [last]);
      ScriptBound(init);
      var a, b := OldSide(script), NewSide(script);
      var a0, b0 := OldSide(init), NewSide(init);
      match last
      case Keep(x) =>
        assert a == a0 + [x] && b == b0 + [x];
        assert a[..|a| - 1] == a0 && b[..|b| - 1] == b0;
      case FromA(x) =>
        assert a == a0 + [x] && b == b0;
        assert a[..|a| - 1] == a0;
        DropLastA(a, b);
      case FromB(x) =>
        assert a == a0 && b == b0 + [x];
        assert b[..|b| - 1] == b0;
        DropLastB(a, b);
    }
  }

  /** A sign, a space, the line and a newline. */
  function Line(sign: char, text: string): string
  {
    [sign] + " " + text + "\n"
  }

  /** The printed diff: a space for a kept line, `aSign` for a line only in
      the first side, `bSign` for a line only in the second, in script order. */
  function Format(script: seq<Edit>, aSign: char, bSign: char): string
  {
    if |script| == 0 then ""
    else
      var e := script[|script| - 1];
      var sign := if e.Keep? then ' ' else if e.FromA? then aSign else bSign;
      Format(script[..|script| - 1], aSign, bSign) + Line(sign, e.line)
  }

  /** The longest-common-subsequence lengths of all prefix pairs: entry
      (r, s) is that of the first r lines of `a` and the first s of `b`. */
  predicate IsLcsTable(c: array2<nat>, a: seq<string>, b: seq<string>)
    reads c
  {
    c.Length0 == |a| + 1 && c.Length1 == |b| + 1 &&
    forall r, s :: 0 <= r <= |a| && 0 <= s <= |b| ==> c[r, s] == Lcs(a[..r], b[..s])
  }

  /** The table-filling loops of lcsDiff; row and column 0 stand for the
      empty element lcsDiff puts in front of both texts. */
  method FillTable(a: seq<string>, b: seq<string>) returns (c: array2<nat>)
    ensures IsLcsTable(c, a, b)
  {
    var m, n := |a|, |b|;
    c := new nat[m + 1, n + 1]((_, _) => 0);
    var i := 1;
    while i <= m
      invariant 1 <= i <= m + 1
      invariant forall r, s :: 0 <= r < i && 0 <= s <= n ==> c[r, s] == Lcs(a[..r], b[..s])
      invariant forall r, s :: i <= r <= m && 0 <= s <= n ==> c[r, s] == 0
    {
      var j := 1;
      while j <= n
        invariant 1 <= j <= n + 1
        invariant forall r, s :: 0 <= r < i && 0 <= s <= n ==> c[r, s] == Lcs(a[..r], b[..s])
        invariant forall s :: 0 <= s < j ==> c[i, s] == Lcs(a[..i], b[..s])
        invariant forall r, s :: i < r <= m && 0 <= s <= n ==> c[r, s] == 0
      {
        LcsCell(a, b, i, j);
        if a[i - 1] == b[j - 1] {
          c[i, j] := c[i - 1, j - 1] + 1;
        } else if c[i, j - 1] < c[i - 1, j] {
          c[i, j] := c[i - 1, j];
        } else {
          c[i, j] := c[i, j - 1];
        }
        j := j + 1;
      }
      i := i + 1;
    }
  }

  /** The backtracking loop of lcsDiff: from the far corner, take a common
      line when the current lines agree, else a line of `b` when that keeps
      at least as long a common subsequence, else a line of `a`. Edits are
      put in front, so the script reads in text order. */
  method Backtrack(a: seq<string>, b: seq<string>, c: array2<nat>) returns (script: seq<Edit>)
    requires IsLcsTable(c, a, b)
    ensures OldSide(script) == a && NewSide(script) == b
    ensures Matched(script) == Lcs(a, b)
  {
    script := [];
    var m, n := |a|, |b|;
    assert a[..m] == a && b[..n] == b;
    var i, j := m, n;
    while i > 0 || j > 0
      invariant 0 <= i <= m && 0 <= j <= n
      invariant OldSide(script) == a[i..] && NewSide(script) == b[j..]
      invariant Matched(script) + Lcs(a[..i], b[..j]) == Lcs(a, b)
      decreases i + j
    {
      if i > 0 && j > 0 && a[i - 1] == b[j - 1] {
        KeepStep(a, b, i, j, script);
        script := [Keep(a[i - 1])] + script;
        i, j := i - 1, j - 1;
      } else if j > 0 && (i == 0 || c[i, j - 1] >= c[i - 1, j]) {
        assert i > 0 ==> c[i, j - 1] == Lcs(a[..i], b[..j - 1]) && c[i - 1, j] == Lcs(a[..i - 1], b[..j]);
        FromBStep(a, b, i, j, script);
        script := [FromB(b[j - 1])] + script;
        j := j - 1;
      } else {
        assert j > 0 ==> c[i, j - 1] == Lcs(a[..i], b[..j - 1]) && c[i - 1, j] == Lcs(a[..i - 1], b[..j]);
        FromAStep(a, b, i, j, script);
        script := [FromA(a[i - 1])] + script;
        i := i - 1;
      }
    }
    assert a[0..] == a && b[0..] == b;
  }

  /** A backtracking step over a common last line. */
  lemma KeepStep(a: seq<string>, b: seq<string>, i: nat, j: nat, script: seq<Edit>)
    requires 0 < i <= |a| && 0 < j <= |b| && a[i - 1] == b[j - 1]
    requires OldSide(script) == a[i..] && NewSide(script) == b[j..]
    ensures OldSide([Keep(a[i - 1])] + script) == a[i - 1..]
    ensures NewSide([Keep(a[i - 1])] + script) == b[j - 1..]
    ensures Matched([Keep(a[i - 1])] + script) + Lcs(a[..i - 1], b[..j - 1]) == Matched(script) + Lcs(a[..i], b[..j])
  {
    LcsCell(a, b, i, j);
    Prepend(Keep(a[i - 1]), script);
    assert a[i - 1..] == [a[i - 1]] + a[i..];
    assert b[j - 1..] == [b[j - 1]] + b[j..];
  }

  /** A backtracking step over a last line of `b` that keeps as long a
      common subsequence. */
  lemma FromBStep(a: seq<string>, b: seq<string>, i: nat, j: nat, script: seq<Edit>)
    requires i <= |a| && 0 < j <= |b|
    requires i > 0 ==> a[i - 1] != b[j - 1] && Lcs(a[..i], b[..j - 1]) >= Lcs(a[..i - 1], b[..j])
    requires OldSide(script) == a[i..] && NewSide(script) == b[j..]
    ensures OldSide([FromB(b[j - 1])] + script) == a[i..]
    ensures NewSide([FromB(b[j - 1])] + script) == b[j - 1..]
    ensures Matched([FromB(b[j - 1])] + script) + Lcs(a[..i], b[..j - 1]) == Matched(script) + Lcs(a[..i], b[..j])
  {
    if i > 0 { LcsCell(a, b, i, j); }
    Prepend(FromB(b[j - 1]), script);
    assert b[j - 1..] == [b[j - 1]] + b[j..];
  }

  /** A backtracking step over a last line of `a`. */
  lemma FromAStep(a: seq<string>, b: seq<string>, i: nat, j: nat, script: seq<Edit>)
    requires 0 < i <= |a| && j <= |b|
    requires j > 0 ==> a[i - 1] != b[j - 1] && Lcs(a[..i], b[..j - 1]) < Lcs(a[..i - 1], b[..j])
    requires OldSide(script) == a[i..] && NewSide(script) == b[j..]
    ensures OldSide([FromA(a[i - 1])] + script) == a[i - 1..]
    ensures NewSide([FromA(a[i - 1])] + script) == b[j..]
    ensures Matched([FromA(a[i - 1])] + script) + Lcs(a[..i - 1], b[..j]) == Matched(script) + Lcs(a[..i], b[..j])
  {
    if j > 0 { LcsCell(a, b, i, j); }
    Prepend(FromA(a[i - 1]), script);
    assert a[i - 1..] == [a[i - 1]] + a[i..];
  }

  /** What putting one edit in front of a script adds to each side. */
  lemma Prepend(e: Edit, s: seq<Edit>)
    ensures OldSide([e] + s) == (if e.FromB? then [] else [e.line]) + OldSide(s)
    ensures NewSide([e] + s) == (if e.FromA? then [] else [e.line]) + NewSide(s)
    ensures Matched([e] + s) == (if e.Keep? then 1 else 0) + Matched(s)
  {
    assert ([e] + s)[0] == e && ([e] + s)[1..] == s;
  }

  /** The printing loop of lcsDiff. */
  method Print(script: seq<Edit>, aSign: char, bSign: char) returns (out: string)
    ensures out == Format(script, aSign, bSign)
  {
    out := "";
    var k := 0;
    while k < |script|
      invariant 0 <= k <= |script|
      invariant out == Format(script[..k], aSign, bSign)
    {
      var e := script[k];
      var sign := if e.Keep? then ' ' else if e.FromA? then aSign else bSign;
      assert script[..k + 1][..k] == script[..k];
      out := out + Line(sign, e.line);
      k := k + 1;
    }
    assert script[..k] == script;
  }

  /** lcsDiff: the table, the backtrack, the printing. The script walks
      through both inputs and keeps as many common lines as any script can
      (see ScriptBound). */
  method Diff(a: seq<string>, aSign: char, b: seq<string>, bSign: char) returns (out: string, script: seq<Edit>)
    ensures OldSide(script) == a && NewSide(script) == b
    ensures Matched(script) == Lcs(a, b)
    ensures out == Format(script, aSign, bSign)
  {
    var c := FillTable(a, b);
    script := Backtrack(a, b, c);
    out := Print(script, aSign, bSign);
  }

  /** A line that is common to a one-line text and another text is one of the other text's lines. */
  lemma {:induction false} SingleLineLcs(p: string, b: seq<string>)
    ensures Lcs([p], b) <= 1
    ensures Lcs([p], b) == 1 <==> p in b
  {
    if |b| > 0 {
      var b' := b[..|b| - 1];
      SingleLineLcs(p, b');
      assert [p][..0] == [];
      assert b == b' + [b[|b| - 1]];
    }
  }

  /** The header compare puts above the diff. */
  const DiffHeader := "(+got,-want):\n"

  /** compare: nothing when the expected message `p` occurs in the
      validator's output `v`; otherwise a diff of `p` against the
      ';'-separated pieces of `v`, in which no line is common — every line
      is `p` marked '+' or a piece marked '-'. */
  method Compare(v: string, p: string) returns (err: string, script: seq<Edit>)
    ensures err == "" <==> IsSubstring(p, v)
    ensures err != "" ==> err == DiffHeader + Format(script, '+', '-')
    ensures err != "" ==> OldSide(script) == [p] && NewSide(script) == Split(v, ';')
    ensures err != "" ==> forall k :: 0 <= k < |script| ==> !script[k].Keep?
  {
    if Contains(v, p) {
      return "", [];
    }
    var pieces := Split(v, ';');
    var diff;
    diff, script := Diff([p], '+', pieces, '-');
    forall k | 0 <= k < |pieces| ensures pieces[k] != p {
      SplitPieceOccurs(v, ';', k);
    }
    SingleLineLcs(p, pieces);
    NoKeepWhenUnmatched(script);
    err := DiffHeader + diff;
  }

  /** A script that keeps no line has no Keep edit. */
  lemma {:induction false} NoKeepWhenUnmatched(script: seq<Edit>)
    requires Matched(script) == 0
    ensures forall k :: 0 <= k < |script| ==> !script[k].Keep?
  {
    if |script| > 0 {
      NoKeepWhenUnmatched(script[1..]);
      assert forall k :: 1 <= k < |script| ==> script[k] == script[1..][k - 1];
    }
  }
}

=== FILE: plugin.dfy ===
/** The plugin entry point (Validate in validator.go): the optional
    comparison with a legacy config, then the validation of each file to
    generate, stopping with a Go error at the first name that has no
    descriptor. */
module Plugin {
  import opened Wrappers
  import opened Search
  import opened Descriptors
  import opened Config
  import opened Diagnostics
  import Validator
  import Comparator

  /** The validator's answer: the diagnostics added to the response's error
      text, in order, and the Go error that ended the run early, if any. */
  datatype Response = Response(diagnostics: seq<Diagnostic>, failure: Option<string>)

  /** The error field of the CodeGeneratorResponse: every diagnostic added
      with addError, starting from the unset (empty) field. */
  function ErrorText(r: Response): string
  {
    AddAll("", r.diagnostics)
  }

  /** The rich descriptor of a file to generate, looked up by name. */
  function FindFile(files: seq<File>, name: string): (r: Option<File>)
    ensures r.Some? ==> r.value.name == name && r.value in files
    ensures r.None? <==> forall f :: f in files ==> f.name != name
  {
    Find(files, (f: File) => f.name == name)
  }

  /** The Go error for a file to generate with no descriptor. */
  function MissingFileMessage(name: string): string
  {
    "FileToGenerate (" + name + ") did not have a rich descriptor"
  }

  /** Every file the loop reaches can have its signatures walked (see
      Validator.Walkable): the descriptor of each name up to the first
      name that has none. Files that are only dependencies, and names past
      a missing one, are never validated and need nothing. */
  predicate GeneratedWalkable(files: seq<File>, names: seq<string>)
  {
    |names| == 0 ||
    match FindFile(files, names[0])
    case None => true
    case Some(f) => Validator.FileWalkable(files, f) && GeneratedWalkable(files, names[1..])
  }

  /** Dropping the head of a prefix is taking a prefix of the tail. */
  lemma PrefixTail<T>(s: seq<T>, k: nat)
    requires 0 < k <= |s|
    ensures s[..k][0] == s[0] && s[..k][1..] == s[1..][..k - 1]
  {
  }

  /** Every prefix of the names reaches only files the whole list reaches. */
  lemma {:induction false} GeneratedWalkablePrefix(files: seq<File>, names: seq<string>, k: nat)
    requires k <= |names|
    requires GeneratedWalkable(files, names)
    ensures GeneratedWalkable(files, names[..k])
  {
    if k > 0 && FindFile(files, names[0]).Some? {
      PrefixTail(names, k);
      GeneratedWalkablePrefix(files, names[1..], k - 1);
    }
  }

  /** The loop over the files to generate: validate each in order; stop at
      the first name that has no descriptor, keeping what was reported. */
  function Generate(files: seq<File>, names: seq<string>): Response
    requires GeneratedWalkable(files, names)
  {
    if |names| == 0 then Response([], None)
    else match FindFile(files, names[0])
      case None => Response([], Some(MissingFileMessage(names[0])))
      case Some(f) =>
        var rest := Generate(files, names[1..]);
        Response(Validator.ValidateFile(files, f) + rest.diagnostics, rest.failure)
  }

  /** `names[k]` is the first name to generate that has no descriptor. */
  predicate FirstMissingAt(files: seq<File>, names: seq<string>, k: int)
  {
    && 0 <= k < |names| && FindFile(files, names[k]).None?
    && forall j :: 0 <= j < k ==> FindFile(files, names[j]).Some?
  }

  /** Past a name that has a descriptor, the first missing name moves one
      position on. */
  lemma FirstMissingShift(files: seq<File>, names: seq<string>, k: int)
    requires |names| > 0 && FindFile(files, names[0]).Some?
    requires FirstMissingAt(files, names[1..], k)
    ensures FirstMissingAt(files, names, k + 1)
  {
    assert forall j :: 1 <= j <= k + 1 ==> names[j] == names[1..][j - 1];
  }

  /** The Go error the run ends with: the one for the first name that has
      no descriptor, or none when every name has one. */
  function FirstMissing(files: seq<File>, names: seq<string>): (r: Option<string>)
    ensures r.None? <==> forall k :: 0 <= k < |names| ==> FindFile(files, names[k]).Some?
    ensures r.Some? ==> exists k :: FirstMissingAt(files, names, k) && r.value == MissingFileMessage(names[k])
  {
    if |names| == 0 then None
    else if FindFile(files, names[0]).None? then
      assert FirstMissingAt(files, names, 0);
      Some(MissingFileMessage(names[0]))
    else
      var r := FirstMissing(files, names[1..]);
      assert forall k :: 1 <= k < |names| ==> names[k] == names[1..][k - 1];
      if r.Some? then
        var k :| FirstMissingAt(files, names[1..], k) && r.value == MissingFileMessage(names[1..][k]);
        FirstMissingShift(files, names, k);
        r
      else
        r
  }

  /** The loop ends with the Go error of the first name that has no descriptor. */
  lemma {:induction false} GenerateFailure(files: seq<File>, names: seq<string>)
    requires GeneratedWalkable(files, names)
    ensures Generate(files, names).failure == FirstMissing(files, names)
  {
    if |names| > 0 {
      FailureStep(files, names);
      if FindFile(files, names[0]).Some? {
        GenerateFailure(files, names[1..]);
      }
    }
  }

  /** The Go error after the first name: the one for that name when it has
      no descriptor, otherwise the one the remaining names end with. */
  lemma FailureStep(files: seq<File>, names: seq<string>)
    requires GeneratedWalkable(files, names)
    requires |names| > 0
    ensures Generate(files, names).failure
            == if FindFile(files, names[0]).None? then Some(MissingFileMessage(names[0]))
               else Generate(files, names[1..]).failure
  {
  }

  /** One step of the loop over the names, at a name that has a descriptor. */
  lemma GenerateStep(files: seq<File>, names: seq<string>)
    requires GeneratedWalkable(files, names)
    requires |names| > 0 && FindFile(files, names[0]).Some?
    ensures var rest := Generate(files, names[1..]);
            Generate(files, names)
            == Response(Validator.ValidateFile(files, FindFile(files, names[0]).value) + rest.diagnostics, rest.failure)
  {
  }

  /** A missing name ends the run: what was reported for the names before it
      stays, nothing after it is validated. */
  lemma {:induction false} GenerateStopsAtMissing(files: seq<File>, names: seq<string>, k: nat)
    requires GeneratedWalkable(files, names)
    requires FirstMissingAt(files, names, k)
    ensures GeneratedWalkable(files, names[..k])
    ensures Generate(files, names) == Response(Generate(files, names[..k]).diagnostics, Some(MissingFileMessage(names[k])))
  {
    GeneratedWalkablePrefix(files, names, k);
    if k > 0 {
      var tail := names[1..];
      assert FirstMissingAt(files, tail, k - 1) by {
        assert forall j :: 0 <= j <= k - 1 ==> tail[j] == names[j + 1];
      }
      GenerateStopsAtMissing(files, tail, k - 1);
      GenerateStep(files, names);
      PrefixTail(names, k);
      GenerateStep(files, names[..k]);
    }
  }

  /** Validate: the comparison (when a config was given), then the files. */
  function Validate(files: seq<File>, toGenerate: seq<string>, config: Option<ConfigProto>): (r: Response)
    requires GeneratedWalkable(files, toGenerate)
    ensures config.None? ==> r == Generate(files, toGenerate)
    ensures config.Some? ==> Comparator.Compare(files, config.value) <= r.diagnostics
    ensures r.failure == Generate(files, toGenerate).failure
    ensures var g := Generate(files, toGenerate).diagnostics;
            |g| <= |r.diagnostics| && r.diagnostics[|r.diagnostics| - |g|..] == g
    ensures config.Some? ==>
              |r.diagnostics| == |Comparator.Compare(files, config.value)| + |Generate(files, toGenerate).diagnostics|
  {
    var pre := if config.Some? then Comparator.Compare(files, config.value) else [];
    var g := Generate(files, toGenerate);
    Response(pre + g.diagnostics, g.failure)
  }

  /** The response reports a problem exactly when some diagnostic was added,
      and its error text is the rendering of the diagnostics in order. */
  lemma ErrorTextReportsDiagnostics(r: Response)
    ensures ErrorText(r) == Render(r.diagnostics)
    ensures ErrorText(r) == "" <==> |r.diagnostics| == 0
  {
    AddAllAppends("", r.diagnostics);
    RenderEmpty(r.diagnostics);
    assert "" + Render(r.diagnostics) == Render(r.diagnostics);
  }
}

=== FILE: resolver.dfy ===
/** Descriptor resolution (resolver.go): pure lookups over the file set.
    Being functions of their arguments, neither lookup can emit a
    diagnostic or change the file set. */
module Resolver {
  import opened Wrappers
  import opened GoStrings
  import opened Descriptors

  /** `r` is what a first-match scan of `files` for `name` yields: the
      answer of the first file that declares `name`, or None when no file does. */
  ghost predicate FirstInFiles(files: seq<File>, name: string, r: Option<Message>)
  {
    && (r.None? <==> forall k :: 0 <= k < |files| ==> FindMessage(files[k], name).None?)
    && (r.Some? ==> exists i :: 0 <= i < |files| && FindMessage(files[i], name) == r
                                && forall k :: 0 <= k < i ==> FindMessage(files[k], name).None?)
  }

  /** The name a bare (dot-free) reference takes inside `file`'s package. */
  function Qualify(file: File, name: string): string
  {
    file.package + "." + name
  }

  /** resolveMsgReference: the message an operation_info type names, as
      seen from `file`. A dot-free name is first tried in `file`'s own
      package; otherwise, or if that fails, the first file of the set that
      declares the name wins. */
  function ResolveMsgReference(files: seq<File>, name: string, file: File): (r: Option<Message>)
    ensures name == "" ==> r.None?
    ensures r.Some? ==> r.value.fqn == name || ('.' !in name && r.value.fqn == Qualify(file, name))
    ensures name != "" && '.' !in name && FindMessage(file, Qualify(file, name)).Some? ==>
              r == FindMessage(file, Qualify(file, name))
    ensures name != "" && ('.' in name || FindMessage(file, Qualify(file, name)).None?) ==>
              FirstInFiles(files, name, r)
  {
    if name == "" then None
    else if '.' !in name && FindMessage(file, Qualify(file, name)).Some? then
      FindMessage(file, Qualify(file, name))
    else
      Lookup(files, name)
  }

  /** resolveResRefMessage, called with the type and the field's file (the
      declared middle parameter is unused and absent here): only the
      message `package.typ` of that one file can be returned. */
  function ResolveResRefMessage(typ: string, file: File): (r: Option<Message>)
    ensures typ == "" ==> r.None?
    ensures r.Some? ==> r.value.fqn == Qualify(file, typ) && r.value in AllMessages(file)
    ensures typ != "" && r.None? ==> forall m :: m in AllMessages(file) ==> m.fqn != Qualify(file, typ)
  {
    if typ == "" then None else FindMessage(file, Qualify(file, typ))
  }

  /** A resource type of the form service/Kind contains '/', a message name
      never does: on a parsed file the local lookup of such a type fails. */
  lemma ResRefWithSlashUnresolvable(typ: string, file: File)
    requires '/' in typ
    requires NamesWithoutSlash(file)
    ensures ResolveResRefMessage(typ, file).None?
  {
    var q := Qualify(file, typ);
    var i :| 0 <= i < |typ| && typ[i] == '/';
    assert q[|file.package| + 1 + i] == '/';
  }
}

=== FILE: validator.dfy ===
/** The annotation validator (validator.go): a walk over a file's
    resource definitions, services with their methods, and messages with
    their fields, producing the diagnostics of every rule that fails. */
module Validator {
  import opened Wrappers
  import Search
  import opened GoStrings
  import opened Descriptors
  import opened Diagnostics
  import opened Resolver

  /** Output type that marks a long-running method. */
  const LongRunningOperation := "google.longrunning.Operation"

  /** maxCharRescTypeKind. */
  const MaxKindLength: nat := 100

  /** Resource types that are never defined locally. */
  const WellKnownTypes: set<string> := {
    "cloudresourcemanager.googleapis.com/Project",
    "cloudresourcemanager.googleapis.com/Organization",
    "cloudresourcemanager.googleapis.com/Folder",
    "locations.googleapis.com/Location",
    "cloudbilling.googleapis.com/BillingAccount"
  }

  // ---------------------------------------------------------------------
  // Resource descriptors

  /** Some position of `kind` starts a match of the unanchored regular
      expression [A-Z][a-zA-Z0-9]+ : an upper-case letter followed by a
      letter or digit. */
  ghost predicate KindPatternOccurs(kind: string)
  {
    exists i :: 0 <= i < |kind| - 1 && IsUpper(kind[i]) && IsAlnum(kind[i + 1])
  }

  /** resourceTypeKindRegexp.MatchString, as a left-to-right scan. */
  function MatchesKindRegexp(kind: string): (r: bool)
    ensures r <==> KindPatternOccurs(kind)
  {
    if |kind| < 2 then false
    else if IsUpper(kind[0]) && IsAlnum(kind[1]) then true
    else
      var r := MatchesKindRegexp(kind[1..]);
      assert forall i :: 1 <= i < |kind| - 1 ==> kind[i] == kind[1..][i - 1] && kind[i + 1] == kind[1..][i];
      r
  }

  /** validateRescTypeKind: an invalid-format diagnostic exactly when the
      kind has no match of the regular expression, a too-long diagnostic
      exactly when it is over 100 characters; the two are independent. */
  function ValidateRescTypeKind(kind: string, owner: string): (ds: seq<Diagnostic>)
    ensures ResTypeKindInvalid(kind) in ds <==> !KindPatternOccurs(kind)
    ensures ResTypeKindTooLong(owner, MaxKindLength) in ds <==> |kind| > MaxKindLength
    ensures forall d :: d in ds ==> d == ResTypeKindInvalid(kind) || d == ResTypeKindTooLong(owner, MaxKindLength)
    ensures |ds| <= 2 && (|ds| == 2 ==> ds[0] == ResTypeKindInvalid(kind))
  {
    (if !MatchesKindRegexp(kind) then [ResTypeKindInvalid(kind)] else [])
    + (if |kind| > MaxKindLength then [ResTypeKindTooLong(owner, MaxKindLength)] else [])
  }

  /** The missing-pattern report, which does not depend on the type. */
  function PatternDiagnostics(res: ResourceDescriptor, owner: string): seq<Diagnostic>
  {
    if |res.patterns| == 0 then [ResMissingPattern(owner)] else []
  }

  /** The checks on the type of a resource descriptor: a missing type, a
      type that is not exactly one '/' between two parts, or the kind
      checks on the text after the '/'. */
  function TypeDiagnostics(typ: string, owner: string): (ds: seq<Diagnostic>)
    ensures forall d :: d in ds ==> IsResourceDiagnostic(d) && !d.ResMissingPattern?
    ensures typ == "" ==> ds == [ResMissingType(owner)]
    ensures typ != "" && Count(typ, '/') != 1 ==> ds == [ResInvalidTypeFormat(owner)]
    ensures Count(typ, '/') == 1 ==> ds == ValidateRescTypeKind(AfterFirst(typ, '/'), owner)
  {
    if typ == "" then [ResMissingType(owner)]
    else
      var split := Split(typ, '/');
      if |split| != 2 then [ResInvalidTypeFormat(owner)]
      else
        SplitAtOnlySeparator(typ, '/');
        ValidateRescTypeKind(split[1], owner)
  }

  /** validateResourceDescriptor: the pattern check, then the type checks. */
  function ValidateResourceDescriptor(res: ResourceDescriptor, owner: string): (ds: seq<Diagnostic>)
    ensures ResMissingPattern(owner) in ds <==> |res.patterns| == 0
    ensures forall d :: d in ds ==> IsResourceDiagnostic(d)
    ensures res.typ == "" ==> ds == PatternDiagnostics(res, owner) + [ResMissingType(owner)]
    ensures res.typ != "" && Count(res.typ, '/') != 1 ==>
              ds == PatternDiagnostics(res, owner) + [ResInvalidTypeFormat(owner)]
    ensures Count(res.typ, '/') == 1 ==>
              ds == PatternDiagnostics(res, owner) + ValidateRescTypeKind(AfterFirst(res.typ, '/'), owner)
  {
    var head := PatternDiagnostics(res, owner);
    var tail := TypeDiagnostics(res.typ, owner);
    assert ResMissingPattern(owner) !in tail;
    head + tail
  }

  /** A resource descriptor passes exactly when it has a pattern and a
      type "service/Kind" whose kind matches the regular expression and
      is at most 100 characters long. */
  lemma ResourceDescriptorAccepted(res: ResourceDescriptor, owner: string)
    ensures ValidateResourceDescriptor(res, owner) == [] <==>
              && |res.patterns| > 0 && Count(res.typ, '/') == 1
              && KindPatternOccurs(AfterFirst(res.typ, '/')) && |AfterFirst(res.typ, '/')| <= MaxKindLength
  {
    var kind := AfterFirst(res.typ, '/');
    if Count(res.typ, '/') == 1 {
      var kds := ValidateRescTypeKind(kind, owner);
      assert kds == [] <==> KindPatternOccurs(kind) && |kind| <= MaxKindLength by {
        if kds != [] { assert kds[0] in kds; }
      }
    }
  }

  /** The type a resource_reference points at: `type`, or `child_type` when `type` is empty. */
  function ReferencedType(ref: ResourceReference): string
  {
    if ref.typ != "" then ref.typ else ref.childType
  }

  /** validateResRef: nothing for a well-known type or "*"; one format error
      unless the type is exactly two '/'-separated parts; otherwise one
      "not a valid resource" exactly when the local lookup fails. */
  function ValidateResRef(ref: ResourceReference, field: string, file: File): (ds: seq<Diagnostic>)
    ensures var typ := ReferencedType(ref);
      && (typ in WellKnownTypes || typ == "*" ==> ds == [])
      && (typ !in WellKnownTypes && typ != "*" && Count(typ, '/') != 1 ==> ds == [ResRefInvalidTypeFormat(field)])
      && (typ !in WellKnownTypes && typ != "*" && Count(typ, '/') == 1 ==>
            && (ds == [] <==> ResolveResRefMessage(typ, file).Some?)
            && (ds != [] ==> ds == [ResRefNotValidResource(field, typ)]))
  {
    var typ := ReferencedType(ref);
    if typ in WellKnownTypes || typ == "*" then []
    else if |Split(typ, '/')| != 2 then [ResRefInvalidTypeFormat(field)]
    else if ResolveResRefMessage(typ, file).None? then [ResRefNotValidResource(field, typ)]
    else []
  }

  /** On a parsed file every well-formed reference that is neither
      well-known nor "*" is reported, whatever the file set holds: the
      local lookup of "package.service/Kind" cannot succeed. */
  lemma WellFormedReferenceAlwaysReported(ref: ResourceReference, field: string, file: File)
    requires NamesWithoutSlash(file)
    requires ReferencedType(ref) !in WellKnownTypes && ReferencedType(ref) != "*"
    requires Count(ReferencedType(ref), '/') == 1
    ensures ValidateResRef(ref, field, file) == [ResRefNotValidResource(field, ReferencedType(ref))]
  {
    CountPositive(ReferencedType(ref), '/');
    ResRefWithSlashUnresolvable(ReferencedType(ref), file);
  }

  /** A resource_reference report names the field it was given. */
  lemma ResRefReportNamesField(ref: ResourceReference, field: string, file: File, d: Diagnostic)
    requires d in ValidateResRef(ref, field, file)
    ensures IsReferenceDiagnostic(d) && d.field == field
  {
  }

  /** A diagnostic about a resource_reference. */
  predicate IsReferenceDiagnostic(d: Diagnostic)
  {
    d.ResRefNotValidResource? || d.ResRefInvalidTypeFormat?
  }

  /** The reference checks of `fields`, in field order: each diagnostic
      names a field of `msg` that carries a resource_reference. */
  function ReferenceDiagnostics(file: File, msg: Message, fields: seq<Field>): (ds: seq<Diagnostic>)
    ensures |ds| <= |fields|
    ensures forall f, d ::
              f in fields && f.resourceReference.Some? && d in ValidateResRef(f.resourceReference.value, FieldFqn(msg, f), file)
              ==> d in ds
    ensures forall d :: d in ds ==>
              exists f :: f in fields && f.resourceReference.Some? && d in ValidateResRef(f.resourceReference.value, FieldFqn(msg, f), file)
    ensures ds == [] <==> forall f :: f in fields && f.resourceReference.Some? ==>
                            ValidateResRef(f.resourceReference.value, FieldFqn(msg, f), file) == []
  {
    var check := (f: Field) =>
      if f.resourceReference.Some? then ValidateResRef(f.resourceReference.value, FieldFqn(msg, f), file) else [];
    assert forall f :: f in fields && f.resourceReference.Some? ==>
      check(f) == ValidateResRef(f.resourceReference.value, FieldFqn(msg, f), file);
    Search.FlatMap(fields, check)
  }

  /** The reference checks run in field order: the first field's reports
      come before those of the rest. */
  lemma ReferenceDiagnosticsInOrder(file: File, msg: Message, fields: seq<Field>)
    requires fields != []
    ensures ReferenceDiagnostics(file, msg, fields)
            == (if fields[0].resourceReference.Some?
                then ValidateResRef(fields[0].resourceReference.value, FieldFqn(msg, fields[0]), file)
                else [])
               + ReferenceDiagnostics(file, msg, fields[1..])
  {
  }

  /** Every reference diagnostic is a resource_reference report, and it
      names a field of the message that carries a resource_reference. */
  lemma ReferenceReportsNameFields(file: File, msg: Message, fields: seq<Field>)
    ensures forall d :: d in ReferenceDiagnostics(file, msg, fields) ==>
              (IsReferenceDiagnostic(d) &&
               exists f :: f in fields && f.resourceReference.Some? && d.field == FieldFqn(msg, f))
  {
    forall d | d in ReferenceDiagnostics(file, msg, fields)
      ensures IsReferenceDiagnostic(d) && exists f :: f in fields && f.resourceReference.Some? && d.field == FieldFqn(msg, f)
    {
      var f :| f in fields && f.resourceReference.Some? && d in ValidateResRef(f.resourceReference.value, FieldFqn(msg, f), file);
      ResRefReportNamesField(f.resourceReference.value, FieldFqn(msg, f), file, d);
    }
  }


  /** The field that must carry a resource's name: name_field, default "name". */
  function NameField(res: ResourceDescriptor): string
  {
    if res.nameField != "" then res.nameField else "name"
  }

  /** A diagnostic about a resource annotation. */
  predicate IsResourceDiagnostic(d: Diagnostic)
  {
    d.ResMissingPattern? || d.ResMissingType? || d.ResInvalidTypeFormat? || d.ResTypeKindInvalid? || d.ResTypeKindTooLong?
  }

  /** validateMessage: the resource checks and the name-field check when a
      resource is present, then every field's resource_reference in field order. */
  function ValidateMessage(file: File, msg: Message): (ds: seq<Diagnostic>)
    ensures ResMissingNameField(msg.fqn) in ds <==>
              msg.resource.Some? && FindField(msg, NameField(msg.resource.value)).None?
    ensures msg.resource.None? ==> forall d :: d in ds ==> IsReferenceDiagnostic(d)
    ensures msg.resource.Some? ==> ValidateResourceDescriptor(msg.resource.value, msg.fqn) <= ds
    ensures msg.resource.None? ==> ds == ReferenceDiagnostics(file, msg, msg.fields)
    ensures msg.resource.Some? ==>
              |ds| == |ValidateResourceDescriptor(msg.resource.value, msg.fqn)|
                      + (if FindField(msg, NameField(msg.resource.value)).None? then 1 else 0)
                      + |ReferenceDiagnostics(file, msg, msg.fields)|
    ensures var refs := ReferenceDiagnostics(file, msg, msg.fields); |refs| <= |ds| && ds[|ds| - |refs|..] == refs
    ensures ds == [] <==>
              && ReferenceDiagnostics(file, msg, msg.fields) == []
              && (msg.resource.Some? ==>
                    && ValidateResourceDescriptor(msg.resource.value, msg.fqn) == []
                    && FindField(msg, NameField(msg.resource.value)).Some?)
  {
    var refs := ReferenceDiagnostics(file, msg, msg.fields);
    ReferenceReportsNameFields(file, msg, msg.fields);
    assert ResMissingNameField(msg.fqn) !in refs;
    match msg.resource
    case None => refs
    case Some(res) =>
      assert ResMissingNameField(msg.fqn) !in ValidateResourceDescriptor(res, msg.fqn);
      var own := ValidateResourceDescriptor(res, msg.fqn)
        + (if FindField(msg, NameField(res)).None? then [ResMissingNameField(msg.fqn)] else []);
      own + refs
  }

  // ---------------------------------------------------------------------
  // Services and methods

  /** The default_host value, None when the service has no options or the
      options lack the extension. */
  function DefaultHost(serv: Service): Option<string>
  {
    if serv.options.None? then None else serv.options.value.defaultHost
  }

  /** The default_host check of validateService. */
  function DefaultHostDiagnostics(serv: Service): (ds: seq<Diagnostic>)
    ensures ds == [MissingDefaultHost(serv.fqn)] <==> DefaultHost(serv).None?
    ensures ds == [EmptyDefaultHost(serv.fqn)] <==> DefaultHost(serv) == Some("")
    ensures ds == [] <==> DefaultHost(serv).Some? && DefaultHost(serv).value != ""
  {
    match serv.options
    case None => [MissingDefaultHost(serv.fqn)]
    case Some(opts) =>
      match opts.defaultHost
      case None => [MissingDefaultHost(serv.fqn)]
      case Some(host) => if host == "" then [EmptyDefaultHost(serv.fqn)] else []
  }

  /** The operation_info annotation, None when the method has no options
      or the options lack the extension. */
  function OperationInfoOf(m: Method): Option<OperationInfo>
  {
    if m.options.None? then None else m.options.value.operationInfo
  }

  /** The method_signature entries, empty when the annotation is absent. */
  function Signatures(m: Method): seq<string>
  {
    if m.options.None? || m.options.value.signatures.None? then [] else m.options.value.signatures.value
  }

  /** The response_type check: missing when empty, unresolvable when the
      resolver finds nothing, otherwise silent. */
  function ResponseTypeDiagnostics(files: seq<File>, file: File, rpc: string, value: string): (ds: seq<Diagnostic>)
    ensures value == "" ==> ds == [MissingLroResponseType(rpc)]
    ensures value != "" ==> (ds == [] <==> ResolveMsgReference(files, value, file).Some?)
    ensures value != "" && ds != [] ==> ds == [UnresolvableLroResponseType(value, rpc)]
  {
    if value == "" then [MissingLroResponseType(rpc)]
    else if ResolveMsgReference(files, value, file).None? then [UnresolvableLroResponseType(value, rpc)]
    else []
  }

  /** The metadata_type check, the same three outcomes as response_type. */
  function MetadataTypeDiagnostics(files: seq<File>, file: File, rpc: string, value: string): (ds: seq<Diagnostic>)
    ensures value == "" ==> ds == [MissingLroMetadataType(rpc)]
    ensures value != "" ==> (ds == [] <==> ResolveMsgReference(files, value, file).Some?)
    ensures value != "" && ds != [] ==> ds == [UnresolvableLroMetadataType(value, rpc)]
  {
    if value == "" then [MissingLroMetadataType(rpc)]
    else if ResolveMsgReference(files, value, file).None? then [UnresolvableLroMetadataType(value, rpc)]
    else []
  }

  /** The operation_info checks, made only when the output type is
      google.longrunning.Operation. */
  function LroDiagnostics(files: seq<File>, file: File, m: Method): (ds: seq<Diagnostic>)
    ensures m.outputType != LongRunningOperation ==> ds == []
    ensures m.outputType == LongRunningOperation && OperationInfoOf(m).None? ==> ds == [MissingLroInfo(m.fqn)]
    ensures m.outputType == LongRunningOperation && OperationInfoOf(m).Some? ==>
              var info := OperationInfoOf(m).value;
              ds == ResponseTypeDiagnostics(files, file, m.fqn, info.responseType)
                    + MetadataTypeDiagnostics(files, file, m.fqn, info.metadataType)
    ensures forall d :: d in ds ==> RpcOf(d) == Some(m.fqn)
  {
    if m.outputType != LongRunningOperation then []
    else match m.options
      case None => [MissingLroInfo(m.fqn)]
      case Some(opts) =>
        match opts.operationInfo
        case None => [MissingLroInfo(m.fqn)]
        case Some(info) =>
          ResponseTypeDiagnostics(files, file, m.fqn, info.responseType)
          + MetadataTypeDiagnostics(files, file, m.fqn, info.metadataType)
  }

  /** How the walk along a dotted field path ends. */
  datatype PathOutcome = Resolved | Missing | RepeatedComponent

  /** The walk along `comps` from `msg` never has to look a field up in a
      nil message: every component that is not the last, names a field,
      and is not repeated, has a message type found in the file set. */
  predicate Walkable(files: seq<File>, msg: Message, comps: seq<string>)
    decreases |comps|
  {
    |comps| >= 1 &&
    match FindField(msg, comps[0])
    case None => true
    case Some(f) =>
      || (f.repeated && |comps| > 1)
      || |comps| == 1
      || (f.messageType.Some? && Lookup(files, f.messageType.value).Some?
          && Walkable(files, Lookup(files, f.messageType.value).value, comps[1..]))
  }

  /** The nested-field walk of validateMethod: stop at a component that
      does not exist, or at a repeated field that is not the last component. */
  function WalkPath(files: seq<File>, msg: Message, comps: seq<string>): PathOutcome
    requires Walkable(files, msg, comps)
    decreases |comps|
  {
    match FindField(msg, comps[0])
    case None => Missing
    case Some(f) =>
      if f.repeated && |comps| > 1 then RepeatedComponent
      else if |comps| == 1 then Resolved
      else WalkPath(files, Lookup(files, f.messageType.value).value, comps[1..])
  }

  /** The message reached by following `comps` through existing,
      non-repeated, message-typed fields; None if any step fails. */
  function Reach(files: seq<File>, msg: Message, comps: seq<string>): Option<Message>
    decreases |comps|
  {
    if |comps| == 0 then Some(msg)
    else match FindField(msg, comps[0])
      case None => None
      case Some(f) =>
        if f.repeated || f.messageType.None? then None
        else match Lookup(files, f.messageType.value)
          case None => None
          case Some(next) => Reach(files, next, comps[1..])
  }

  /** Walking a path whose prefix reaches message `m` is walking the rest of
      the path from `m`: the walk is the loop over components of the source,
      one step per index. */
  lemma {:induction false} WalkFromReached(files: seq<File>, msg: Message, pre: seq<string>, rest: seq<string>, m: Message)
    requires Reach(files, msg, pre) == Some(m)
    requires |rest| >= 1
    requires Walkable(files, msg, pre + rest)
    ensures Walkable(files, m, rest)
    ensures WalkPath(files, msg, pre + rest) == WalkPath(files, m, rest)
    decreases |pre|
  {
    if |pre| == 0 {
      assert pre + rest == rest;
    } else {
      var f := FindField(msg, pre[0]).value;
      var next := Lookup(files, f.messageType.value).value;
      var path := pre + rest;
      Search.AppendTail(pre, rest);
      assert path[0] == pre[0] && |path| > 1;
      assert !f.repeated && f.messageType.Some?;
      assert Reach(files, next, pre[1..]) == Some(m);
      assert Walkable(files, next, path[1..]);
      assert WalkPath(files, msg, path) == WalkPath(files, next, path[1..]);
      WalkFromReached(files, next, pre[1..], rest, m);
    }
  }

  /** A path whose prefix reaches message `m` can be walked whenever its
      rest can be walked from `m`. */
  lemma {:induction false} WalkableThroughReached(files: seq<File>, msg: Message, pre: seq<string>, rest: seq<string>, m: Message)
    requires Reach(files, msg, pre) == Some(m)
    requires Walkable(files, m, rest)
    ensures Walkable(files, msg, pre + rest)
    decreases |pre|
  {
    if |pre| == 0 {
      assert pre + rest == rest;
    } else {
      var f := FindField(msg, pre[0]).value;
      var next := Lookup(files, f.messageType.value).value;
      WalkableThroughReached(files, next, pre[1..], rest, m);
      Search.AppendTail(pre, rest);
    }
  }

  /** An existing field, repeated or not, is accepted as the last
      component of a path. */
  lemma RepeatedLastComponentAccepted(files: seq<File>, msg: Message, pre: seq<string>, last: string, m: Message)
    requires Reach(files, msg, pre) == Some(m)
    requires FindField(m, last).Some?
    ensures Walkable(files, msg, pre + [last])
    ensures WalkPath(files, msg, pre + [last]) == Resolved
  {
    WalkableThroughReached(files, msg, pre, [last], m);
    WalkFromReached(files, msg, pre, [last], m);
  }

  /** A repeated field before the last component stops the walk with the
      repeated-component outcome. */
  lemma RepeatedInnerComponentRejected(files: seq<File>, msg: Message, pre: seq<string>, c: string, rest: seq<string>, m: Message)
    requires Reach(files, msg, pre) == Some(m)
    requires FindField(m, c).Some? && FindField(m, c).value.repeated
    requires |rest| >= 1
    ensures Walkable(files, msg, pre + ([c] + rest))
    ensures WalkPath(files, msg, pre + ([c] + rest)) == RepeatedComponent
  {
    WalkableThroughReached(files, msg, pre, [c] + rest, m);
    WalkFromReached(files, msg, pre, [c] + rest, m);
  }

  /** A component that names no field of the reached message stops the
      walk with the missing outcome. */
  lemma MissingComponentReported(files: seq<File>, msg: Message, pre: seq<string>, c: string, rest: seq<string>, m: Message)
    requires Reach(files, msg, pre) == Some(m)
    requires FindField(m, c).None?
    ensures Walkable(files, msg, pre + ([c] + rest))
    ensures WalkPath(files, msg, pre + ([c] + rest)) == Missing
  {
    WalkableThroughReached(files, msg, pre, [c] + rest, m);
    WalkFromReached(files, msg, pre, [c] + rest, m);
  }

  /** Every path of every signature entry can be walked. */
  predicate SignaturesWalkable(files: seq<File>, m: Method)
  {
    forall e, p :: e in Signatures(m) && p in Split(e, ',') ==> Walkable(files, m.input, Split(p, '.'))
  }

  /** The check of one comma-separated field path of a signature entry:
      at most one diagnostic, a missing-field one naming the path, the
      method, the entry and the input message, or a repeated-component one. */
  function PathDiagnostics(files: seq<File>, m: Method, entry: string, path: string): (ds: seq<Diagnostic>)
    requires Walkable(files, m.input, Split(path, '.'))
    ensures |ds| <= 1
    ensures ds == [FieldDne(path, m.fqn, entry, m.input.fqn)] <==> WalkPath(files, m.input, Split(path, '.')) == Missing
    ensures ds == [FieldComponentRepeated(m.fqn, path)] <==> WalkPath(files, m.input, Split(path, '.')) == RepeatedComponent
    ensures ds == [] <==> WalkPath(files, m.input, Split(path, '.')) == Resolved
  {
    match WalkPath(files, m.input, Split(path, '.'))
    case Resolved => []
    case Missing => [FieldDne(path, m.fqn, entry, m.input.fqn)]
    case RepeatedComponent => [FieldComponentRepeated(m.fqn, path)]
  }

  /** The checks of the paths of one entry, in order. */
  function EntryDiagnostics(files: seq<File>, m: Method, entry: string, paths: seq<string>): (ds: seq<Diagnostic>)
    requires forall p :: p in paths ==> Walkable(files, m.input, Split(p, '.'))
    ensures |ds| <= |paths|
    ensures forall p, d :: p in paths && d in PathDiagnostics(files, m, entry, p) ==> d in ds
    ensures forall d :: d in ds ==> exists p :: p in paths && d in PathDiagnostics(files, m, entry, p)
    ensures ds == [] <==> forall p :: p in paths ==> PathDiagnostics(files, m, entry, p) == []
  {
    var check := (p: string) requires Walkable(files, m.input, Split(p, '.')) => PathDiagnostics(files, m, entry, p);
    assert forall p :: p in paths ==> check(p) == PathDiagnostics(files, m, entry, p);
    Search.FlatMap(paths, check)
  }

  /** The method_signature checks over all entries, in order. */
  function SignatureDiagnostics(files: seq<File>, m: Method, entries: seq<string>): (ds: seq<Diagnostic>)
    requires forall e, p :: e in entries && p in Split(e, ',') ==> Walkable(files, m.input, Split(p, '.'))
    ensures forall e, d :: e in entries && d in EntryDiagnostics(files, m, e, Split(e, ',')) ==> d in ds
    ensures forall d :: d in ds ==> exists e :: e in entries && d in EntryDiagnostics(files, m, e, Split(e, ','))
    ensures ds == [] <==> forall e :: e in entries ==> EntryDiagnostics(files, m, e, Split(e, ',')) == []
  {
    var check := (e: string) requires forall p :: p in Split(e, ',') ==> Walkable(files, m.input, Split(p, '.')) =>
      EntryDiagnostics(files, m, e, Split(e, ','));
    assert forall e :: e in entries ==> check(e) == EntryDiagnostics(files, m, e, Split(e, ','));
    Search.FlatMap(entries, check)
  }

  /** Every method_signature diagnostic is a missing-field or a
      repeated-component report, and it names the method. */
  lemma SignatureReportsName(files: seq<File>, m: Method, entries: seq<string>)
    requires forall e, p :: e in entries && p in Split(e, ',') ==> Walkable(files, m.input, Split(p, '.'))
    ensures forall d :: d in SignatureDiagnostics(files, m, entries) ==>
              (d.FieldDne? || d.FieldComponentRepeated?) && RpcOf(d) == Some(m.fqn)
  {
    forall d | d in SignatureDiagnostics(files, m, entries)
      ensures (d.FieldDne? || d.FieldComponentRepeated?) && RpcOf(d) == Some(m.fqn)
    {
      var e, p := SignatureReportSource(files, m, entries, d);
      PathReportNamesMethod(files, m, e, p, d);
    }
  }

  /** Every method_signature diagnostic is the report of one comma-separated
      path of one entry. */
  lemma SignatureReportSource(files: seq<File>, m: Method, entries: seq<string>, d: Diagnostic) returns (e: string, p: string)
    requires forall e, p :: e in entries && p in Split(e, ',') ==> Walkable(files, m.input, Split(p, '.'))
    requires d in SignatureDiagnostics(files, m, entries)
    ensures e in entries && p in Split(e, ',') && d in PathDiagnostics(files, m, e, p)
  {
    e :| e in entries && d in EntryDiagnostics(files, m, e, Split(e, ','));
    p :| p in Split(e, ',') && d in PathDiagnostics(files, m, e, p);
  }

  /** A path's report is a missing-field or repeated-component one naming the method. */
  lemma PathReportNamesMethod(files: seq<File>, m: Method, entry: string, path: string, d: Diagnostic)
    requires Walkable(files, m.input, Split(path, '.'))
    requires d in PathDiagnostics(files, m, entry, path)
    ensures (d.FieldDne? || d.FieldComponentRepeated?) && RpcOf(d) == Some(m.fqn)
  {
  }

  /** A path's report reaches the method_signature diagnostics. */
  lemma PathReportReachesSignature(files: seq<File>, m: Method, entries: seq<string>, e: string, p: string, d: Diagnostic)
    requires forall e, p :: e in entries && p in Split(e, ',') ==> Walkable(files, m.input, Split(p, '.'))
    requires e in entries && p in Split(e, ',')
    requires d in PathDiagnostics(files, m, e, p)
    ensures d in SignatureDiagnostics(files, m, entries)
  {
    assert d in EntryDiagnostics(files, m, e, Split(e, ','));
  }

  /** Every comma-separated path of every entry that names a missing field,
      or runs through a repeated field, is reported as such. */
  lemma SignatureReportsPaths(files: seq<File>, m: Method, entries: seq<string>)
    requires forall e, p :: e in entries && p in Split(e, ',') ==> Walkable(files, m.input, Split(p, '.'))
    ensures forall e, p :: e in entries && p in Split(e, ',') && WalkPath(files, m.input, Split(p, '.')) == Missing ==>
              FieldDne(p, m.fqn, e, m.input.fqn) in SignatureDiagnostics(files, m, entries)
    ensures forall e, p :: e in entries && p in Split(e, ',') && WalkPath(files, m.input, Split(p, '.')) == RepeatedComponent ==>
              FieldComponentRepeated(m.fqn, p) in SignatureDiagnostics(files, m, entries)
  {
    forall e, p | e in entries && p in Split(e, ',') && WalkPath(files, m.input, Split(p, '.')) == Missing
      ensures FieldDne(p, m.fqn, e, m.input.fqn) in SignatureDiagnostics(files, m, entries)
    {
      PathReportReachesSignature(files, m, entries, e, p, FieldDne(p, m.fqn, e, m.input.fqn));
    }
    forall e, p | e in entries && p in Split(e, ',') && WalkPath(files, m.input, Split(p, '.')) == RepeatedComponent
      ensures FieldComponentRepeated(m.fqn, p) in SignatureDiagnostics(files, m, entries)
    {
      PathReportReachesSignature(files, m, entries, e, p, FieldComponentRepeated(m.fqn, p));
    }
  }

  /** The method_signature entries are silent exactly when every
      comma-separated path of every entry resolves. */
  lemma SignatureAccepted(files: seq<File>, m: Method, entries: seq<string>)
    requires forall e, p :: e in entries && p in Split(e, ',') ==> Walkable(files, m.input, Split(p, '.'))
    ensures SignatureDiagnostics(files, m, entries) == [] <==>
              forall e, p :: e in entries && p in Split(e, ',') ==> WalkPath(files, m.input, Split(p, '.')) == Resolved
  {
    if SignatureDiagnostics(files, m, entries) != [] {
      var e, p := SignatureReportSource(files, m, entries, SignatureDiagnostics(files, m, entries)[0]);
      assert WalkPath(files, m.input, Split(p, '.')) != Resolved;
    }
  }

  /** The method a method-level diagnostic names, None for any other kind. */
  function RpcOf(d: Diagnostic): Option<string>
  {
    match d
    case MissingLroInfo(r) => Some(r)
    case MissingLroResponseType(r) => Some(r)
    case MissingLroMetadataType(r) => Some(r)
    case UnresolvableLroResponseType(_, r) => Some(r)
    case UnresolvableLroMetadataType(_, r) => Some(r)
    case FieldDne(_, r, _, _) => Some(r)
    case FieldComponentRepeated(r, _) => Some(r)
    case _ => None
  }

  /** validateMethod: the operation_info checks, then the method_signature
      checks; every diagnostic names the method. */
  function ValidateMethod(files: seq<File>, file: File, m: Method): (ds: seq<Diagnostic>)
    requires SignaturesWalkable(files, m)
    ensures forall d :: d in ds ==> RpcOf(d) == Some(m.fqn)
    ensures LroDiagnostics(files, file, m) <= ds
    ensures var sd := SignatureDiagnostics(files, m, Signatures(m)); |sd| <= |ds| && ds[|ds| - |sd|..] == sd
    ensures |ds| == |LroDiagnostics(files, file, m)| + |SignatureDiagnostics(files, m, Signatures(m))|
  {
    SignatureReportsName(files, m, Signatures(m));
    LroDiagnostics(files, file, m) + SignatureDiagnostics(files, m, Signatures(m))
  }

  /** A method passes exactly when its operation_info checks pass and every
      field path of every signature entry resolves; a path naming a field
      that does not exist, or walking through a repeated field, is reported. */
  lemma MethodAccepted(files: seq<File>, file: File, m: Method)
    requires SignaturesWalkable(files, m)
    ensures ValidateMethod(files, file, m) == [] <==>
              && LroDiagnostics(files, file, m) == []
              && forall e, p :: e in Signatures(m) && p in Split(e, ',') ==> WalkPath(files, m.input, Split(p, '.')) == Resolved
    ensures forall e, p :: e in Signatures(m) && p in Split(e, ',') && WalkPath(files, m.input, Split(p, '.')) == Missing ==>
              FieldDne(p, m.fqn, e, m.input.fqn) in ValidateMethod(files, file, m)
    ensures forall e, p :: e in Signatures(m) && p in Split(e, ',') && WalkPath(files, m.input, Split(p, '.')) == RepeatedComponent ==>
              FieldComponentRepeated(m.fqn, p) in ValidateMethod(files, file, m)
  {
    SignatureAccepted(files, m, Signatures(m));
    SignatureReportsPaths(files, m, Signatures(m));
    var ds := ValidateMethod(files, file, m);
    var sd := SignatureDiagnostics(files, m, Signatures(m));
    assert ds == LroDiagnostics(files, file, m) + sd;
    assert forall d :: d in sd ==> d in ds;
  }

  /** The checks of a service's methods, in order; every diagnostic names one of them. */
  function ValidateMethods(files: seq<File>, file: File, ms: seq<Method>): (ds: seq<Diagnostic>)
    requires forall m :: m in ms ==> SignaturesWalkable(files, m)
    ensures forall d :: d in ds ==> RpcOf(d).Some? && exists m :: m in ms && RpcOf(d) == Some(m.fqn)
    ensures forall m, d :: m in ms && d in ValidateMethod(files, file, m) ==> d in ds
    ensures forall d :: d in ds ==> exists m :: m in ms && d in ValidateMethod(files, file, m)
    ensures ds == [] <==> forall m :: m in ms ==> ValidateMethod(files, file, m) == []
  {
    var check := (m: Method) requires SignaturesWalkable(files, m) => ValidateMethod(files, file, m);
    assert forall m :: m in ms ==> check(m) == ValidateMethod(files, file, m);
    Search.FlatMap(ms, check)
  }

  /** validateService: the default_host check, then every method. The two
      default_host diagnostics appear exactly in their cases, and the method
      checks never produce one. */
  function ValidateService(files: seq<File>, file: File, serv: Service): (ds: seq<Diagnostic>)
    requires forall m :: m in serv.methods ==> SignaturesWalkable(files, m)
    ensures MissingDefaultHost(serv.fqn) in ds <==> DefaultHost(serv).None?
    ensures EmptyDefaultHost(serv.fqn) in ds <==> DefaultHost(serv) == Some("")
    ensures DefaultHost(serv).Some? && DefaultHost(serv).value != "" ==> forall d :: d in ds ==> RpcOf(d).Some?
    ensures var vm := ValidateMethods(files, file, serv.methods); |vm| <= |ds| && ds[|ds| - |vm|..] == vm
    ensures |ds| == |DefaultHostDiagnostics(serv)| + |ValidateMethods(files, file, serv.methods)|
  {
    var vm := ValidateMethods(files, file, serv.methods);
    assert RpcOf(MissingDefaultHost(serv.fqn)).None? && RpcOf(EmptyDefaultHost(serv.fqn)).None?;
    assert MissingDefaultHost(serv.fqn) !in vm && EmptyDefaultHost(serv.fqn) !in vm;
    DefaultHostDiagnostics(serv) + vm
  }

  /** Every method of every service of `file` can have its signatures walked. */
  predicate FileWalkable(files: seq<File>, file: File)
  {
    forall s, m :: s in file.services && m in s.methods ==> SignaturesWalkable(files, m)
  }

  /** The checks of the file-level resource_definition entries; each owner is the entry's own type. */
  function DefinitionDiagnostics(defs: seq<ResourceDescriptor>): (ds: seq<Diagnostic>)
    ensures forall d :: d in ds ==> IsResourceDiagnostic(d)
    ensures forall r, d :: r in defs && d in ValidateResourceDescriptor(r, r.typ) ==> d in ds
    ensures forall d :: d in ds ==> exists r :: r in defs && d in ValidateResourceDescriptor(r, r.typ)
    ensures ds == [] <==> forall r :: r in defs ==> ValidateResourceDescriptor(r, r.typ) == []
  {
    var check := (r: ResourceDescriptor) => ValidateResourceDescriptor(r, r.typ);
    assert forall r :: r in defs ==> check(r) == ValidateResourceDescriptor(r, r.typ);
    Search.FlatMap(defs, check)
  }

  /** The checks of a file's services, in order. */
  function ServiceDiagnostics(files: seq<File>, file: File, servs: seq<Service>): (ds: seq<Diagnostic>)
    requires forall s, m :: s in servs && m in s.methods ==> SignaturesWalkable(files, m)
    ensures forall s, d :: s in servs && d in ValidateService(files, file, s) ==> d in ds
    ensures forall d :: d in ds ==> exists s :: s in servs && d in ValidateService(files, file, s)
    ensures ds == [] <==> forall s :: s in servs ==> ValidateService(files, file, s) == []
  {
    var check := (s: Service) requires forall m :: m in s.methods ==> SignaturesWalkable(files, m) =>
      ValidateService(files, file, s);
    assert forall s :: s in servs ==> check(s) == ValidateService(files, file, s);
    Search.FlatMap(servs, check)
  }

  /** The checks of a file's top-level messages, in order. */
  function MessageDiagnostics(file: File, msgs: seq<Message>): (ds: seq<Diagnostic>)
    ensures forall g, d :: g in msgs && d in ValidateMessage(file, g) ==> d in ds
    ensures forall d :: d in ds ==> exists g :: g in msgs && d in ValidateMessage(file, g)
    ensures ds == [] <==> forall g :: g in msgs ==> ValidateMessage(file, g) == []
  {
    var check := (g: Message) => ValidateMessage(file, g);
    assert forall g :: g in msgs ==> check(g) == ValidateMessage(file, g);
    Search.FlatMap(msgs, check)
  }

  /** validate: the resource definitions, then the services, then the
      top-level messages of one file. */
  function ValidateFile(files: seq<File>, file: File): (ds: seq<Diagnostic>)
    requires FileWalkable(files, file)
    ensures DefinitionDiagnostics(file.resourceDefinitions) <= ds
    ensures var dd, sd := DefinitionDiagnostics(file.resourceDefinitions), ServiceDiagnostics(files, file, file.services);
            |dd| + |sd| <= |ds| && ds[|dd|..|dd| + |sd|] == sd
    ensures var md := MessageDiagnostics(file, file.messages); |md| <= |ds| && ds[|ds| - |md|..] == md
    ensures |ds| == |DefinitionDiagnostics(file.resourceDefinitions)| + |ServiceDiagnostics(files, file, file.services)|
                    + |MessageDiagnostics(file, file.messages)|
    ensures ds == [] <==>
              && DefinitionDiagnostics(file.resourceDefinitions) == []
              && ServiceDiagnostics(files, file, file.services) == []
              && MessageDiagnostics(file, file.messages) == []
  {
    DefinitionDiagnostics(file.resourceDefinitions)
    + ServiceDiagnostics(files, file, file.services)
    + MessageDiagnostics(file, file.messages)
  }
}

=== FILE: wrappers.dfy ===
/** Optional values: the model's stand-in for a nil pointer, an absent
    extension or a lookup that found nothing. */
module Wrappers {

  datatype Option<+T> = None | Some(value: T)
}

/** First-match searches over sequences. The Go code searches maps and
    slices with early-returning loops; the model fixes the order by taking
    sequences, and these two searches state what "first" means. */
module Search {
  import opened Wrappers

  /** The first element of `xs` that satisfies `p`. */
  function Find<T(==)>(xs: seq<T>, p: T -> bool): (r: Option<T>)
    ensures r.None? <==> forall k :: 0 <= k < |xs| ==> !p(xs[k])
    ensures r.Some? ==> exists i :: 0 <= i < |xs| && xs[i] == r.value && p(xs[i]) && FirstAt(xs, p, i)
  {
    if |xs| == 0 then None
    else if p(xs[0]) then (assert FirstAt(xs, p, 0); Some(xs[0]))
    else
      var r := Find(xs[1..], p);
      if r.Some? then
        var i :| 0 <= i < |xs[1..]| && xs[1..][i] == r.value && p(xs[1..][i]) && FirstAt(xs[1..], p, i);
        assert FirstAt(xs, p, i + 1) by {
          forall k | 0 <= k < i + 1 ensures !p(xs[k]) {
            if k > 0 { assert xs[k] == xs[1..][k - 1]; }
          }
        }
        assert xs[i + 1] == r.value;
        r
      else
        r
  }

  /** Searching a concatenation searches the first part, then the second. */
  lemma {:induction false} FindAppend<T>(a: seq<T>, b: seq<T>, p: T -> bool)
    ensures Find(a + b, p) == if Find(a, p).Some? then Find(a, p) else Find(b, p)
  {
    if |a| == 0 {
      assert a + b == b;
    } else {
      assert (a + b)[0] == a[0];
      if !p(a[0]) {
        assert (a + b)[1..] == a[1..] + b;
        FindAppend(a[1..], b, p);
      }
    }
  }

  /** The head and tail of a concatenation with a non-empty first part,
      stated for any element type so that no element equality is involved. */
  lemma AppendTail<T>(a: seq<T>, b: seq<T>)
    requires |a| > 0
    ensures (a + b)[0] == a[0] && (a + b)[1..] == a[1..] + b
  {
  }

  /** Concatenation regroups freely, stated for any element type. */
  lemma AppendAssoc<T>(a: seq<T>, b: seq<T>, c: seq<T>)
    ensures (a + b) + c == a + (b + c)
  {
  }

  /** No element before position `i` satisfies `p`. */
  predicate FirstAt<T>(xs: seq<T>, p: T -> bool, i: int)
    requires 0 <= i <= |xs|
  {
    forall k :: 0 <= k < i ==> !p(xs[k])
  }

  /** The first non-None answer of `g` over `xs`, in sequence order. */
  function FirstSome<T, U(==)>(xs: seq<T>, g: T -> Option<U>): (r: Option<U>)
    ensures r.None? <==> forall k :: 0 <= k < |xs| ==> g(xs[k]).None?
    ensures r.Some? ==> exists i :: 0 <= i < |xs| && g(xs[i]) == r && NoneBefore(xs, g, i)
  {
    if |xs| == 0 then None
    else if g(xs[0]).Some? then (assert NoneBefore(xs, g, 0); g(xs[0]))
    else
      var r := FirstSome(xs[1..], g);
      if r.Some? then
        var i :| 0 <= i < |xs[1..]| && g(xs[1..][i]) == r && NoneBefore(xs[1..], g, i);
        assert NoneBefore(xs, g, i + 1) by {
          forall k | 0 <= k < i + 1 ensures g(xs[k]).None? {
            if k > 0 { assert xs[k] == xs[1..][k - 1]; }
          }
        }
        assert xs[i + 1] == xs[1..][i];
        r
      else
        r
  }

  /** `g` answers None on every element before position `i`. */
  predicate NoneBefore<T, U>(xs: seq<T>, g: T -> Option<U>, i: int)
    requires 0 <= i <= |xs|
  {
    forall k :: 0 <= k < i ==> g(xs[k]).None?
  }

  /** g applied to each of `xs` in order, the results concatenated: the
      shape of every "for each item, report its problems" loop. Each
      item's results appear, nothing else does, and the whole is empty
      exactly when every item's part is. */
  function FlatMap<T(==), U(==)>(xs: seq<T>, g: T --> seq<U>): (ys: seq<U>)
    requires forall x :: x in xs ==> g.requires(x)
    ensures forall x, y :: x in xs && y in g(x) ==> y in ys
    ensures forall y :: y in ys ==> exists x :: x in xs && y in g(x)
    ensures ys == [] <==> forall x :: x in xs ==> g(x) == []
    ensures (forall x :: x in xs ==> |g(x)| <= 1) ==> |ys| <= |xs|
  {
    if |xs| == 0 then []
    else
      assert xs[0] in xs;
      assert forall x :: x in xs[1..] ==> x in xs;
      assert forall x :: x in xs ==> x == xs[0] || x in xs[1..];
      g(xs[0]) + FlatMap(xs[1..], g)
  }
}
